=== FILE: README.md ===
# AuthSys password reset and auth helpers, modelled in Dafny

This project models AuthSys's password-reset flow as pure functions.
AuthSys is a Next.js authentication app.

The flow has three routes:
- **Request.** `POST /api/auth/forgot-password` stores a fresh random reset token for a known email. The token expires after 15 minutes. The route mails a six-digit code. Only after the mail went out does it rewrite the stored token to `token:bcrypt(code)`.
- **Verify.** The verify-OTP step checks, in this order, that the account and record exist, that the record has not expired, and that the code is right. It then overwrites the stored token with `verified-<token>` and returns that string. Its handler lives in `src/app/api/auth/send-login-notification/route.ts`, even though the verify-OTP page posts to `/api/auth/verify-otp`.
- **Reset.** `POST /api/auth/reset-password` authenticates with a signed JWT, not with the stored record. It stores the digest of the new password, then deletes the record.

The model also covers the code around the flow:
- the helpers of `src/lib/auth.ts`: the credentials `authorize` hook, the `jwt` callback, and the OTP, token and expiry helpers;
- the Prisma helpers of `src/lib/db.ts`;
- the register route and the welcome-email route;
- the client-side schemas of the sign-up and reset-password pages;
- the six-box code entry of the verify-OTP page;
- the dashboard's status rule and avatar initials.

Each route handler is a function from the store, the parsed request body and the per-call inputs to a `Step`. A `Step` holds the new store, the `(status, message)` response and the outgoing mails and internal calls. The per-call inputs are the clock, the OTP draw, the random bytes and whether the mail API answered ok.

The foreign libraries are the fields of `Oracles.Env`:
- zod's `.email()` check;
- bcrypt `hash` and `compare`;
- `jwt.verify`.

A lemma that needs an assumption about them states it in its `requires`:
- `HashSound`: a digest verifies its secret;
- `HashShape`: a digest is 60 characters with no `:`;
- `HashNonEmpty`: a digest is never the empty string;
- `HashBinding`: among secrets of at most 72 UTF-8 bytes (the most bcrypt reads) that contain no NUL character, a digest verifies only its own secret. `bcryptjs` appends a NUL to the secret and repeats it up to 72 bytes, so within that bound the key it derives determines the secret;
- `DecodeNeedsCompactForm`: a token that decodes is a JWS compact serialisation with two `.` separators (section 7.1 of RFC 7515).

No lemma requires `HashSound`, `HashShape` and `HashBinding` together. `Oracles.DigestEnvSatisfies` and `Oracles.ShapeEnvSatisfies` give an oracle for each combination the lemmas do require.

The whole-flow lemmas in `ResetFlow` prove four things:
- A mailed code is accepted up to and including its expiry instant.
- A second request invalidates the first code.
- A failed reset mail leaves a record that no code can verify. The attempt ends in a 500.
- After a reset, signing in works with the new password only, among passwords of at most 72 UTF-8 bytes without a NUL character.

One result follows from modelling each route as written. The `verified-…` token that the verify step returns is not a JWS compact serialisation, so the reset route rejects it with "Invalid or expired token" (`ResetFlow.VerifiedTokenRejected`). The verify-OTP page posts the code to `/api/auth/verify-otp` and forwards the `token` of the answer. No handler for that path is part of this model. The model assumes the page's request reaches the send-login-notification handler. Under that assumption, the page flow as written cannot finish a reset with the token it is given.

Modelling decisions taken from the code:
- **Missing digest in the verify route.** A stored token without `:` leaves `hashedOtp` undefined, and `bcrypt.compare` then throws. The route therefore answers 500 "Failed to verify OTP", not 400. This covers a repeated verification and a record whose reset mail failed.
- **Reset route failures.** A token whose claims lack `userId` makes `findUnique` throw, which gives a 500. A missing reset record makes the delete throw after the password has already changed, which also gives a 500.
- **Expiry boundary.** Both the verify route and `isTokenExpired` reject only when the current time is strictly after the expiry.

## Model

| member | source | states |
|---|---|---|
| Store.FindUnique | src/lib/db.ts:14-36 | A lookup finds a user exactly when some row matches the key. Under the unique constraints the found row is the only one that matches. |
| Store.UpsertPasswordReset | src/lib/db.ts:50-63 | Creates or overwrites the user's single reset record and fails for an unknown user. Every other user's record reads back unchanged. |
| Store.UpdateResetToken | src/app/api/auth/forgot-password/route.ts:88-93 | Rewrites only the token of an existing record. The expiry and all other records are kept. |
| Store.DeletePasswordReset | src/lib/db.ts:68-72 | Removes only that user's record. It fails when there is no record. |
| Store.UpdateUserPassword | src/lib/db.ts:77-82 | Changes only the password field, and only on rows with that id. Every other row and all reset records are kept. |
| Store.CreateUser | src/lib/db.ts:87-95 | Appends a row with exactly the given username, email and password. It fails on a clash of id, email or username. |
| Store.ResetSlotLaws | src/lib/db.ts:41-72 | Reading back after upsert and delete. A second upsert hides the first completely. |
| Store.UpdatePasswordKeepsKeys | src/lib/db.ts:77-82 | A password update keeps the unique keys and the record-to-user foreign key. |
| Store.CreateUserKeepsKeys | src/lib/db.ts:87-95 | An accepted insert keeps the unique keys. |
| AuthLib.OtpCode | src/lib/auth.ts:104-108 | The code is six ASCII digits with a non-zero first digit. Its value is 100000 plus the draw. |
| AuthLib.GenerateOtp | src/lib/auth.ts:104-108 | `generateOTP(length)` is the six-digit code cut to `length` characters, with the length clamped to 0..6. |
| AuthLib.OtpCodeRange | src/app/api/auth/forgot-password/route.ts:32 | Codes are exactly the six-digit strings without a leading zero. Distinct draws give distinct codes. |
| AuthLib.GenerateToken | src/lib/auth.ts:113-115 | The token has 2n lowercase hex characters and no `:`. Base16-decoding it gives back the random bytes. |
| AuthLib.CalculateExpiry | src/lib/auth.ts:137-148 | A time counts as expired by `isTokenExpired` exactly when it is strictly later than now plus `minutes` minutes. The expiry instant itself is still live. |
| AuthLib.Authorize | src/lib/auth.ts:31-69 | Missing credentials fail first. Unknown email, no password and wrong password all fail with one message. Under unique keys, success happens exactly when a stored digest verifies. Success returns the stored user's public fields. |
| AuthLib.JwtCallback | src/lib/auth.ts:73-79 | With a user, `id` and `username` are set and every other claim is kept. Without one, the token is unchanged. |
| ForgotPassword.Post | src/app/api/auth/forgot-password/route.ts:13-112 | The decision table of the request route. A malformed email gets 400 and an unknown email the generic 200, both with the store unchanged. A known user's record gets a 15-minute expiry and the code is mailed. On a failed send the record keeps the bare token and the route answers 500. On success the token is `token:hash(code)`. Other users' records are kept. |
| ForgotPassword.InlineMatchesLibrary | src/app/api/auth/forgot-password/route.ts:31-39 | The route's inline code and 15-minute expiry equal `generateOTP()` and `calculateExpiry()` of `src/lib/auth.ts` with their default arguments. |
| ForgotPassword.EncodeRoundTrip | src/app/api/auth/send-login-notification/route.ts:40 | Splitting the stored `token:digest` on `:` gives back exactly the token and the digest. |
| ForgotPassword.StoredTokenHidesOtp | src/app/api/auth/forgot-password/route.ts:85-93 | After a successful request, no `:`-separated part of the stored field equals the mailed code. |
| ForgotPassword.WritesOneRecord | src/app/api/auth/forgot-password/route.ts:42-93 | A request for a known account replaces that account's record and nothing else in the store. The answer is 200 or 500 according to the mail outcome alone. |
| ForgotPassword.LatestRequestWins | src/app/api/auth/forgot-password/route.ts:42-53 | Two requests leave the same store and response as the second one would alone. |
| VerifyOtp.Post | src/app/api/auth/send-login-notification/route.ts:13-83 | Checks the schema, then the record, then expiry (`expires < now`), then the code. Only a 200 changes the store, and it rewrites just the token to `verified-<token>`, keeps the expiry and returns that token. A token without a digest gets 500. |
| VerifyOtp.RepeatVerificationFails | src/app/api/auth/send-login-notification/route.ts:40-61 | After a 200 for an email, no later verification for that email returns 200, whatever the code and time. |
| VerifyOtp.ExpiryMatchesLibrary | src/app/api/auth/send-login-notification/route.ts:32-37 | The route's own test, `expires < now`, answers "OTP has expired" exactly when the library's `isTokenExpired` holds. So a record is accepted at its expiry instant and refused one millisecond later. |
| ResetPassword.Post | src/app/api/auth/reset-password/route.ts:8-91 | The checks run in this order: fields, decode, email match, user. On success only that user's password becomes `hash(new)`, the record is deleted and the confirmation mail goes out. A failed delete answers 500 with the password already changed. |
| ResetPassword.IgnoresStoredRecord | src/app/api/auth/reset-password/route.ts:12-51 | The answer never depends on the stored reset token or its expiry. |
| Register.Post | dist/app/api/auth/register/route.js:12-64 | Checks the schema, then the email, then the username. The response is 201 exactly when all pass and the id is free. It stores `hash(password)`, answers with id, username and email only, and calls the welcome route whatever its outcome. |
| Register.PostKeepsValid | dist/app/api/auth/register/route.js:29-37 | Registration keeps the store's unique keys. |
| Register.FourEmojiPasswordAccepted | dist/app/api/auth/register/route.js:6-10 | A password of four emoji, four characters, passes the server's `.min(8)`. |
| Register.ServerPasswordRuleIsLengthOnly | dist/app/api/auth/register/route.js:6-10 | The server accepts an eight-letter password with no capital letter and no digit, which the sign-up page rejects. |
| WelcomeEmail.Post | src/app/api/auth/send-welcome-email/route.ts:12-75 | Status table: a bad body gets 400, a `username` that is present but not a string included. An unknown email gets the generic 200 with no send, a sent mail 200, and a failed send 200 in development and 500 otherwise. The name is the body username, else the stored one. |
| Forms.Check | src/app/sign-up/page.tsx:19-41 | A check reports an issue, on its own field, exactly when it fails. |
| Forms.UsernameIssues | src/app/sign-up/page.tsx:20-26 | There are no issues exactly when the username is 3 to 20 UTF-16 code units long and uses only `[A-Za-z0-9_]`. |
| Forms.PasswordIssues | src/app/sign-up/page.tsx:28-33 | There are no issues exactly when the password is at least 8 UTF-16 code units long and has an upper-case letter, a lower-case letter and a digit. |
| Forms.AstralCharactersCountTwice | src/app/sign-up/page.tsx:28-33 | "Aa1" followed by three emoji is six characters and still a clean password, because `.min(8)` counts UTF-16 code units. |
| Forms.SignUpIssues | src/app/sign-up/page.tsx:19-41 | The form is clean exactly when every rule holds. A mismatch is reported on `confirmPassword` exactly when the passwords differ, and unaccepted terms on `terms`. |
| Forms.SignUpSubmit | src/app/sign-up/page.tsx:66-74 | Only a clean form posts, and it posts only username, email and password. |
| Forms.SignUpPostPassesServer | src/app/sign-up/page.tsx:66-74 | Whatever the page posts passes the register route's schema. |
| Forms.ResetIssues | src/app/reset-password/page.tsx:16-27 | The form is clean exactly when the password meets the sign-up policy and matches its confirmation. A mismatch is reported on `confirmPassword`. |
| Forms.ResetPageView | src/app/reset-password/page.tsx:38-39 | The "Invalid Request" card shows exactly when the token or email parameter is missing or empty. |
| Forms.ResetPageSubmit | src/app/reset-password/page.tsx:61-75 | Validation blocks first, then the missing-parameter guard. A post carries only token, email and password. |
| Forms.ResetPostPassesFieldCheck | src/app/reset-password/page.tsx:67-75 | A posted body always gets past the route's missing-field check, and its password meets the policy. |
| Forms.ResetSuccessAfter | src/app/reset-password/page.tsx:79-85 | `resetSuccess` is true exactly when some response was ok. |
| OtpEntry.HandleChange | src/app/verify-otp/page.tsx:90-112 | Only the first character counts and a non-digit changes nothing. Otherwise only that box changes and a digit moves focus to the next box. Boxes stay empty or one digit. |
| OtpEntry.HandleKeyDown | src/app/verify-otp/page.tsx:114-138 | Backspace on a full box clears it. Backspace on an empty box clears the previous box and focuses it. On an empty first box it does nothing. Arrows only move focus, within the row. |
| OtpEntry.KeyDownNeverFills | src/app/verify-otp/page.tsx:114-131 | No key press fills a box. Backspace empties exactly one box unless nothing is left to clear. |
| OtpEntry.FirstEmpty | src/app/verify-otp/page.tsx:160 | `findIndex(val => !val)`: the first empty box, or none when every box is full. |
| OtpEntry.HandlePaste | src/app/verify-otp/page.tsx:140-145 | The paste handler of the first box. The clipboard text is trimmed. A trimmed text that is not all digits changes no box and moves no focus. Otherwise the trimmed digits are pasted. |
| OtpEntry.PasteDigits | src/app/verify-otp/page.tsx:147-165 | Box i takes digit i of the paste for i below min(6, len), and the other boxes keep their values. Focus goes to the first empty box, else to the last box. Boxes stay empty or one digit. |
| OtpEntry.PasteFullCode | src/app/verify-otp/page.tsx:140-166 | Pasting six or more digits fills the row with the first six, focuses the last box and triggers auto-submit. |
| OtpEntry.PasteShortFocus | src/app/verify-otp/page.tsx:159-165 | A paste of fewer than six digits into an empty row focuses the box after the last digit. |
| OtpEntry.ConcatOfSlotValues | src/app/verify-otp/page.tsx:77 | The joined boxes are all digits, one per filled box. |
| OtpEntry.AutoSubmitsIffFull | src/app/verify-otp/page.tsx:76-87 | Auto-submit fires exactly when all six boxes are filled. The submitted text passes the six-digit schema. |
| OtpEntry.TypingFillsBoxes | src/app/verify-otp/page.tsx:90-112 | Typing the remaining digits from box k, each into the box the previous keystroke focused, puts one digit per box from k on and leaves the boxes before k alone. |
| OtpEntry.TypingCodeSubmitsIt | src/app/verify-otp/page.tsx:90-112 | Typing a code box by box, following the focus, submits exactly that code. |
| OtpEntry.CountdownFromStart | src/app/verify-otp/page.tsx:31-62 | The page's countdown starts at 300 seconds. It shows 300 − n after n ticks and reaches zero after exactly 300 ticks. |
| OtpEntry.CountdownValue | src/app/verify-otp/page.tsx:54-62 | After n ticks from start c the countdown shows max(c − n, 0). It never goes negative and never rises. |
| OtpEntry.FormatTime | src/app/verify-otp/page.tsx:69-73 | Below 6000 seconds the text is five characters, `MM:SS`. The first field reads as the whole minutes and the second as the remaining seconds. |
| OtpEntry.FormatTimeRoundTrip | src/app/verify-otp/page.tsx:69-73 | Reading the `MM:SS` text back gives the seconds, so distinct counts display differently. |
| Dashboard.Observe | src/app/pages/dashboard.tsx:16-30 | The content replaces the spinner exactly when some status was authenticated. A redirect to `/sign-in` happened exactly when some status was unauthenticated. |
| Dashboard.GetInitials | src/app/pages/dashboard.tsx:38-49 | A truthy name gives the upper-cased word-initial characters of a reference scan. Otherwise the email's first letter, upper-cased, else "U". |
| Dashboard.HeadsOfSplit | src/app/pages/dashboard.tsx:40-44 | `split(" ").map(n => n[0]).join("")` equals the reference scan. Empty words from repeated spaces contribute nothing. |
| Dashboard.StartsMembers | src/app/pages/dashboard.tsx:40-44 | A character is among the initials exactly when it is a non-space at the start of the name or after a space. |
| Dashboard.BlankNameGivesNoInitials | src/app/pages/dashboard.tsx:39-44 | A non-empty name yields empty initials exactly when it is all spaces. |
| JsText.JoinSplit | src/app/api/auth/send-login-notification/route.ts:40 | Joining the pieces of `split` gives back the string. |
| JsText.SplitJoin | src/app/api/auth/forgot-password/route.ts:90 | Splitting a join of separator-free pieces gives back the pieces. |
| Encoding.DecimalRoundTrip | src/lib/auth.ts:106-107 | Reading back the decimal rendering gives the number. |
| Encoding.DecimalCanonical | src/lib/auth.ts:106-107 | A digit string without a leading zero is the rendering of its value. |
| Encoding.HexRoundTrip | src/lib/auth.ts:113-115 | Base16 decoding of the hex encoding gives back the bytes. |
| ResetFlow.RequestThenVerify | src/app/api/auth/send-login-notification/route.ts:32-69 | After a sent request, the mailed code verifies up to and including the expiry instant and returns `verified-<token>`. One millisecond later it gets "OTP has expired". |
| ResetFlow.StaleCodeRejected | src/app/api/auth/send-login-notification/route.ts:43-50 | After a second request, the first code never verifies, given a different draw. |
| ResetFlow.FailedMailLeavesUnverifiableRecord | src/app/api/auth/forgot-password/route.ts:79-81 | After a failed reset mail, any code sent in time ends in the verify route's 500. |
| ResetFlow.VerifiedTokenRejected | src/app/api/auth/reset-password/route.ts:19-31 | The reset route refuses the `verified-<hex>` token with "Invalid or expired token" and changes nothing. |
| ResetFlow.ResetStoresDigest | src/app/api/auth/reset-password/route.ts:53-60 | The claimed account's row ends up holding the digest of the new password, and user keys stay unique. |
| ResetFlow.ResetThenSignIn | src/app/api/auth/reset-password/route.ts:53-65 | After a reset, `authorize` accepts the new password and rejects every other one, even when the delete failed. Both passwords are at most 72 UTF-8 bytes and contain no NUL character. |
| ResetFlow.RequestKeepsValid | src/app/api/auth/forgot-password/route.ts:42-93 | The request route keeps the unique keys and the foreign key. |
| ResetFlow.VerifyKeepsValid | src/app/api/auth/send-login-notification/route.ts:53-61 | The verify route keeps the unique keys and the foreign key. |
| ResetFlow.ResetKeepsValid | src/app/api/auth/reset-password/route.ts:53-65 | The reset route keeps the unique keys and the foreign key. |

## Left out

- Prisma, `fetch` and the mail providers of `src/lib/email.ts` are not modelled. A store call that throws becomes `None` and ends in the route's catch-all. A mail send is a boolean handler input.
- The confirmation mail of the reset route and the welcome call of the register route are recorded in the outbox without an outcome, because both routes ignore it.
- The login notice of `authorize` is likewise recorded without an outcome.
- bcrypt, `jsonwebtoken`, zod's `.email()`, `crypto.randomBytes` and `Math.random` are parameters. The OTP draw is the integer `floor(Math.random() * 900000)`. The floating-point product is not modelled.
- `hashPassword` and `verifyPassword` (src/lib/auth.ts:120-133) are the bcrypt oracle itself.
- A JSON body that does not parse is `None`. A required field of non-string type is treated as absent. In the request, verify and register routes every field is a required string, so zod answers the same 400 for a missing field and for one of another type, and so does the model. The welcome route's optional `username` tells the two apart, and the model does too.
- ResetPassword.Post: a truthy field of non-string type is not modelled, because the route has no schema. A non-string `token` makes `jwt.verify` throw, which gives 400 "Invalid or expired token". A non-string `email` fails the claim comparison, which gives 400 "Invalid token". A non-string `password` makes `bcrypt.hash` throw, which gives 500. The model answers 400 "Missing required fields" in all three cases.
- AuthLib.CalculateExpiry: adds exactly 60000 ms per minute. `setMinutes` works in local time, and the shift around a daylight-saving change is not modelled.
- Dashboard.GetInitials: upper-cases ASCII letters only. Other characters are kept as they are, and `toUpperCase` rules beyond ASCII (such as ß becoming SS) are not modelled.
- JsText.Prefix: strings are sequences of code points, and `slice` counts them rather than UTF-16 code units. Only zod's length rules count code units, through `JsText.Utf16Length`. The two uses agree with the page and library anyway: `generateOTP` cuts a digit string, and when `handleChange` keeps the first code unit of an astral character, that unit is not a digit, just as the whole character is not, so the box ignores it either way.
- Dashboard.GetInitials: `n[0]` of a word that starts with a character beyond the Basic Multilingual Plane is a lone high surrogate in the page (src/app/pages/dashboard.tsx:41), and so is `email[0]` (line 45). The model takes the whole character, because a Dafny `char` cannot hold a lone surrogate.
- React rendering, toasts, router pushes, timers and DOM focus are not modelled, except for the box index a handler focuses.
- The verify-OTP page's disabled states, `handleRequestNewCode`, and the reset of the boxes after a failed submission are left out as presentation.
- The session callback, the OAuth providers, the sign-in and forgot-password pages, the layout and the theme provider are configuration or one-line UI schemas.
- The compiled `dist/` copies of the modelled `src` files are generated duplicates. Only the register route exists solely in `dist/`. One divergence: `dist/app/api/auth/forgot-password/route.js:44-47` answers 500 when the Mailtrap key is missing, after the upsert. The `src` route is modelled.
- Concurrent requests on the same record are not modelled. Requests are sequential, and the last writer wins.
- ResetFlow.ResetThenSignIn: promises nothing for passwords longer than 72 UTF-8 bytes or containing a NUL character. bcrypt reads only the first 72 bytes of a secret, and neither the reset route nor the register route bounds the length. Two long passwords sharing those bytes both sign in. `bcryptjs` also appends a NUL and repeats the secret up to 72 bytes, so after a reset to "a" the password "a", NUL, "a" signs in as well.
- ResetFlow.SignInWithDigest: carries the same bound for the same reasons.
- A paste into boxes 2 to 6 of the verify-OTP page is cut to one character by `maxLength` and arrives through `handleChange`. Only the first box has the paste handler. The browser's `maxLength` cut is not modelled.
- Register.Post: the new row's id is a parameter, so the database's id generator is not modelled.

=== FILE: auth_lib.dfy ===
/** `src/lib/auth.ts`: the credentials `authorize` hook, the `jwt` callback,
    and the OTP, token and expiry helpers. Randomness and the clock are
    parameters: an OTP draw is `floor(Math.random() * 900000)`, a token is the
    bytes `randomBytes` returned, times are milliseconds since the epoch. */
module AuthLib {
  import opened JsText
  import opened Encoding
  import opened Store
  import opened Oracles
  import opened Http
  import opened Schemas

  const OtpBase: nat := 100000
  const DefaultOtpLength: int := 6
  const DefaultTokenBytes: nat := 32
  const DefaultExpiryMinutes: int := 15
  const MillisPerMinute: int := 60000

  /** `Math.floor(Math.random() * 900000)`. */
  type OtpDraw = d: nat | d < 900000

  /** `Math.floor(100000 + Math.random() * 900000).toString()`. */
  function OtpCode(draw: OtpDraw): (otp: string)
    ensures IsOtpCode(otp) && otp[0] != '0'
    ensures DecimalValue(otp) == OtpBase + draw
  {
    assert Pow10(5) == 100000 && Pow10(6) == 1000000;
    DecimalLength(OtpBase + draw, 5);
    DecimalRoundTrip(OtpBase + draw);
    ToDecimal(OtpBase + draw)
  }

  /** `generateOTP(length)`: the code cut to `length` characters. */
  function GenerateOtp(draw: OtpDraw, length: int): (otp: string)
    ensures |otp| == if length <= 0 then 0 else if length >= 6 then 6 else length
    ensures otp == OtpCode(draw)[..|otp|]
  {
    Prefix(OtpCode(draw), length)
  }

  /** Codes are exactly the six-digit strings with a non-zero first digit,
      and different draws give different codes. */
  lemma OtpCodeRange(s: string)
    ensures (exists d: OtpDraw :: OtpCode(d) == s) <==> IsOtpCode(s) && s[0] != '0'
    ensures forall d1: OtpDraw, d2: OtpDraw :: OtpCode(d1) == OtpCode(d2) ==> d1 == d2
  {
    if IsOtpCode(s) && s[0] != '0' {
      var n := DecimalValue(s);
      DecimalCanonical(s);
      assert Pow10(5) == 100000 && Pow10(6) == 1000000;
      if n < 100000 {
        DecimalShort(n, 5);
      } else if n >= 1000000 {
        DecimalLong(n, 6);
      }
      var d: OtpDraw := n - OtpBase;
      assert OtpCode(d) == s;
    }
  }

  /** `generateToken(n)`: `randomBytes(n).toString("hex")`. */
  function GenerateToken(random: seq<Byte>): (token: string)
    ensures |token| == 2 * |random|
    ensures forall i :: 0 <= i < |token| ==> IsLowerHex(token[i])
    ensures ':' !in token
    ensures HexDecode(token) == Some(random)
  {
    HexRoundTrip(random);
    var t := HexEncode(random);
    assert forall i :: 0 <= i < |t| ==> t[i] != ':';
    t
  }

  /** `isTokenExpired`: the current time is strictly after the expiry. */
  predicate IsTokenExpired(expires: int, now: int) {
    now > expires
  }

  /** `calculateExpiry(minutes)`: the expiry is still live exactly up to and
      including `minutes` minutes from now. */
  function CalculateExpiry(now: int, minutes: int): (expires: int)
    ensures forall t :: IsTokenExpired(expires, t) <==> t > now + minutes * MillisPerMinute
    ensures minutes >= 0 ==> !IsTokenExpired(expires, now)
  {
    now + minutes * MillisPerMinute
  }

  // The credentials provider.

  const MsgCredentialsRequired := "Email and password are required"
  const MsgInvalidCredentials := "Invalid email or password"

  datatype Credentials = Credentials(email: Option<string>, password: Option<string>)

  /** The user object `authorize` hands to NextAuth. */
  datatype SessionUser = SessionUser(
    id: UserId, name: Option<string>, email: string, username: Option<string>, image: Option<string>)

  datatype AuthResult = Authorized(user: SessionUser, notice: Outgoing) | AuthError(message: string)

  function SessionOf(u: User): SessionUser {
    SessionUser(u.id, u.name, u.email, u.username, u.image)
  }

  /** Some stored user has this email and a password digest that verifies. */
  predicate PasswordAccepted(db: Db, env: Env, email: string, password: string) {
    exists j :: (&& 0 <= j < |db.users| && db.users[j].email == email
                 && Truthy(db.users[j].password) && env.compare(password, db.users[j].password.value))
  }

  /** `authorize`: missing credentials fail first; an unknown email, an
      account without a password and a wrong password fail alike; success
      returns the stored user's public fields and fires the login notice,
      whose outcome is ignored. */
  function Authorize(db: Db, env: Env, creds: Credentials): (r: AuthResult)
    ensures !Truthy(creds.email) || !Truthy(creds.password) ==> r == AuthError(MsgCredentialsRequired)
    ensures Truthy(creds.email) && Truthy(creds.password) && r.AuthError? ==> r.message == MsgInvalidCredentials
    ensures UniqueKeys(db.users) ==>
      (r.Authorized? <==>
        (&& Truthy(creds.email) && Truthy(creds.password)
         && PasswordAccepted(db, env, creds.email.value, creds.password.value)))
    ensures r.Authorized? ==>
      exists j :: (&& 0 <= j < |db.users| && db.users[j].email == creds.email.value
                   && r.user == SessionOf(db.users[j]) && r.notice == LoginNoticeRequest(db.users[j].email))
  {
    if !Truthy(creds.email) || !Truthy(creds.password) then AuthError(MsgCredentialsRequired)
    else
      match GetUserByEmail(db, creds.email.value)
      case None => AuthError(MsgInvalidCredentials)
      case Some(u) =>
        if !Truthy(u.password) then AuthError(MsgInvalidCredentials)
        else if !env.compare(creds.password.value, u.password.value) then AuthError(MsgInvalidCredentials)
        else Authorized(SessionOf(u), LoginNoticeRequest(u.email))
  }

  // The `jwt` callback.

  datatype JsonValue = JStr(s: string) | JNull

  type JwtToken = map<string, JsonValue>

  function OptionalJson(s: Option<string>): JsonValue {
    match s
    case None => JNull
    case Some(v) => JStr(v)
  }

  /** With a signed-in user, `id` and `username` are set on the token and
      every other claim is kept; without one the token passes through. */
  function JwtCallback(token: JwtToken, user: Option<SessionUser>): (r: JwtToken)
    ensures user.None? ==> r == token
    ensures user.Some? ==> r.Keys == token.Keys + {"id", "username"}
    ensures user.Some? ==> r["id"] == JStr(user.value.id) && r["username"] == OptionalJson(user.value.username)
    ensures forall k :: k in token && k != "id" && k != "username" ==> r[k] == token[k]
  {
    match user
    case None => token
    case Some(u) => token["id" := JStr(u.id)]["username" := OptionalJson(u.username)]
  }
}

=== FILE: dashboard.dfy ===
/** The dashboard page's two pieces of logic: the session-status effect that
    either redirects to sign-in or lifts the loading spinner, and the avatar
    fallback initials. */
module Dashboard {
  import opened JsText

  // The session status effect.

  datatype Status = Pending | Authenticated | Unauthenticated

  /** `loading` and whether the page has pushed `/sign-in`. */
  datatype Page = Page(loading: bool, redirectedToSignIn: bool)

  const Initial: Page := Page(true, false)

  /** The effect run when `status` changes: an unauthenticated session is
      sent to sign-in, an authenticated one ends the loading state, a pending
      one changes nothing. */
  function OnStatus(p: Page, status: Status): (q: Page)
    ensures q.loading == (p.loading && status != Authenticated)
    ensures q.redirectedToSignIn == (p.redirectedToSignIn || status == Unauthenticated)
  {
    match status
    case Pending => p
    case Authenticated => p.(loading := false)
    case Unauthenticated => p.(redirectedToSignIn := true)
  }

  /** The page after the effect has seen a series of statuses: the content
      replaces the spinner exactly when some status was authenticated, and a
      redirect happened exactly when some status was unauthenticated. */
  function Observe(statuses: seq<Status>): (p: Page)
    ensures !p.loading <==> exists k :: 0 <= k < |statuses| && statuses[k] == Authenticated
    ensures p.redirectedToSignIn <==> exists k :: 0 <= k < |statuses| && statuses[k] == Unauthenticated
  {
    if statuses == [] then Initial
    else
      var before := statuses[..|statuses| - 1];
      assert forall k :: 0 <= k < |before| ==> before[k] == statuses[k];
      OnStatus(Observe(before), statuses[|statuses| - 1])
  }

  // Avatar initials.

  /** `words.map(n => n[0]).join("")`: an empty word yields `undefined`, which
      `join` writes as nothing. */
  function Heads(words: seq<string>): (r: string)
    ensures |r| <= |words|
  {
    if words == [] then "" else (if words[0] == "" then "" else [words[0][0]]) + Heads(words[1..])
  }

  /** A reference scan of the name: a character is an initial when it is not
      a space and starts the text (`atStart`) or follows a space. */
  function Starts(s: string, atStart: bool): string
  {
    if s == [] then ""
    else (if s[0] != ' ' && atStart then [s[0]] else "") + Starts(s[1..], s[0] == ' ')
  }

  /** Position `k` begins a word. */
  predicate IsStart(s: string, atStart: bool, k: nat)
    requires k < |s|
  {
    s[k] != ' ' && (if k == 0 then atStart else s[k - 1] == ' ')
  }

  /** `getInitials()`: the upper-cased first letters of the name's
      space-separated words, else the upper-cased first letter of the email,
      else "U". */
  function GetInitials(name: Option<string>, email: Option<string>): (r: string)
    ensures Truthy(name) ==> r == ToUpper(Starts(name.value, true))
    ensures !Truthy(name) && Truthy(email) ==> r == [UpperChar(email.value[0])]
    ensures !Truthy(name) && !Truthy(email) ==> r == "U"
  {
    if Truthy(name) then
      HeadsOfSplit(name.value);
      ToUpper(Heads(Split(name.value, ' ')))
    else if Truthy(email) then [UpperChar(email.value[0])]
    else "U"
  }

  /** The split-and-map pipeline agrees with the reference scan. */
  lemma {:induction false} HeadsOfSplit(s: string)
    ensures Heads(Split(s, ' ')) == Starts(s, true)
    decreases |s|
  {
    match IndexOf(s, ' ')
    case None =>
      WordScan(s, "", true, false);
      assert Split(s, ' ') == [s];
    case Some(i) =>
      var rest := s[i + 1..];
      HeadsOfSplit(rest);
      assert s == s[..i] + [' '] + rest;
      WordScan(s[..i], rest, true, true);
      var words := [s[..i]] + Split(rest, ' ');
      assert Split(s, ' ') == words;
      assert words[1..] == Split(rest, ' ');
      assert Heads(words) == (if s[..i] == "" then "" else [s[..i][0]]) + Heads(Split(rest, ' '));
  }

  /** Scanning one space-free word, then (when `followed`) a space and the rest. */
  lemma {:induction false} WordScan(w: string, rest: string, atStart: bool, followed: bool)
    requires ' ' !in w
    ensures followed ==>
      Starts(w + [' '] + rest, atStart) == (if w != "" && atStart then [w[0]] else "") + Starts(rest, true)
    ensures !followed ==> Starts(w, atStart) == (if w != "" && atStart then [w[0]] else "")
    decreases |w|
  {
    if w != [] {
      WordScan(w[1..], rest, false, followed);
      if followed {
        assert (w + [' '] + rest)[1..] == w[1..] + [' '] + rest;
      }
    } else if followed {
      assert (w + [' '] + rest)[1..] == rest;
    }
  }

  /** The initials are exactly the word-initial characters of the name. */
  lemma {:induction false} StartsMembers(s: string, atStart: bool)
    ensures forall c :: c in Starts(s, atStart) <==> exists k :: 0 <= k < |s| && IsStart(s, atStart, k) && s[k] == c
    decreases |s|
  {
    if s != [] {
      var tail := s[1..];
      var p := s[0] == ' ';
      StartsMembers(tail, p);
      forall c
        ensures c in Starts(s, atStart) <==> exists k :: 0 <= k < |s| && IsStart(s, atStart, k) && s[k] == c
      {
        if c in Starts(tail, p) {
          var k :| 0 <= k < |tail| && IsStart(tail, p, k) && tail[k] == c;
          assert IsStart(s, atStart, k + 1) && s[k + 1] == c;
        }
        if exists k :: 0 <= k < |s| && IsStart(s, atStart, k) && s[k] == c {
          var k :| 0 <= k < |s| && IsStart(s, atStart, k) && s[k] == c;
          if k > 0 {
            assert IsStart(tail, p, k - 1) && tail[k - 1] == c;
          }
        }
      }
    }
  }

  /** A truthy name yields no initials exactly when it is all spaces; then
      the avatar fallback is empty rather than falling back to the email. */
  lemma BlankNameGivesNoInitials(name: string, email: Option<string>)
    requires name != ""
    ensures GetInitials(Some(name), email) == "" <==> forall k :: 0 <= k < |name| ==> name[k] == ' '
  {
    StartsMembers(name, true);
    if exists k :: 0 <= k < |name| && name[k] != ' ' {
      var k :| 0 <= k < |name| && name[k] != ' ';
      var j := FirstStartAtOrBefore(name, k);
      assert name[j] in Starts(name, true);
    } else {
      OnlySpaces(name, true);
    }
  }

  lemma {:induction false} OnlySpaces(s: string, atStart: bool)
    requires forall k :: 0 <= k < |s| ==> s[k] == ' '
    ensures Starts(s, atStart) == ""
    decreases |s|
  {
    if s != [] {
      OnlySpaces(s[1..], true);
    }
  }

  /** Walking left from a non-space character reaches the start of its word. */
  lemma {:induction false} FirstStartAtOrBefore(s: string, k: nat) returns (j: nat)
    requires k < |s| && s[k] != ' '
    ensures j <= k && IsStart(s, true, j)
    decreases k
  {
    if k == 0 || s[k - 1] == ' ' {
      j := k;
    } else {
      j := FirstStartAtOrBefore(s, k - 1);
    }
  }
}

=== FILE: encoding.dfy ===
/** Text encodings of numbers and bytes: `Number.prototype.toString()` for
    non-negative integers (decimal) and `Buffer.toString("hex")` (Base16,
    section 8 of RFC 4648, with the lower-case alphabet Node.js emits). */
module Encoding {
  import opened JsText

  function DigitChar(d: nat): (c: char)
    requires d < 10
    ensures IsDigit(c)
  {
    ('0' as int + d) as char
  }

  function DigitValue(c: char): (d: nat)
    requires IsDigit(c)
    ensures d < 10 && DigitChar(d) == c
  {
    c as int - '0' as int
  }

  /** Decimal rendering of a non-negative integer, without leading zeros. */
  function ToDecimal(n: nat): (s: string)
    ensures |s| >= 1 && IsDigits(s)
    ensures |s| > 1 ==> s[0] != '0'
    decreases n
  {
    if n < 10 then [DigitChar(n)] else ToDecimal(n / 10) + [DigitChar(n % 10)]
  }

  /** The number a string of decimal digits denotes (leading zeros allowed). */
  function DecimalValue(s: string): nat
    requires IsDigits(s)
  {
    if s == [] then 0 else DecimalValue(s[..|s| - 1]) * 10 + DigitValue(s[|s| - 1])
  }

  function Pow10(k: nat): (p: nat)
    ensures p >= 1
  {
    if k == 0 then 1 else 10 * Pow10(k - 1)
  }

  /** Reading back the decimal rendering gives the number. */
  lemma {:induction false} DecimalRoundTrip(n: nat)
    ensures DecimalValue(ToDecimal(n)) == n
    decreases n
  {
    var s := ToDecimal(n);
    if n >= 10 {
      DecimalRoundTrip(n / 10);
      assert s[..|s| - 1] == ToDecimal(n / 10);
    }
  }

  /** A number in [10^k, 10^(k+1)) has exactly k+1 decimal digits. */
  lemma {:induction false} DecimalLength(n: nat, k: nat)
    requires Pow10(k) <= n < Pow10(k + 1)
    ensures |ToDecimal(n)| == k + 1
    decreases k
  {
    if k > 0 {
      DecimalLength(n / 10, k - 1);
    }
  }

  /** Numbers below 10^k have at most k digits. */
  lemma {:induction false} DecimalShort(n: nat, k: nat)
    requires k >= 1 && n < Pow10(k)
    ensures |ToDecimal(n)| <= k
    decreases k
  {
    if n >= 10 {
      DecimalShort(n / 10, k - 1);
    }
  }

  /** Numbers at least 10^k have more than k digits. */
  lemma {:induction false} DecimalLong(n: nat, k: nat)
    requires n >= Pow10(k)
    ensures |ToDecimal(n)| >= k + 1
    decreases k
  {
    if k > 0 {
      DecimalLong(n / 10, k - 1);
    }
  }

  /** A digit string without a leading zero is the rendering of its value. */
  lemma {:induction false} DecimalCanonical(s: string)
    requires |s| >= 1 && IsDigits(s)
    requires |s| > 1 ==> s[0] != '0'
    ensures ToDecimal(DecimalValue(s)) == s
    decreases |s|
  {
    var init := s[..|s| - 1];
    var last := DigitValue(s[|s| - 1]);
    if |s| == 1 {
      assert DecimalValue(s) == DecimalValue(init) * 10 + last;
      assert init == [];
    } else {
      DecimalCanonical(init);
      DecimalPositive(init);
      var n := DecimalValue(s);
      assert n == DecimalValue(init) * 10 + last;
      assert n / 10 == DecimalValue(init) && n % 10 == last;
      assert s == init + [s[|s| - 1]];
    }
  }

  /** A digit string whose first digit is not zero denotes a positive number. */
  lemma {:induction false} DecimalPositive(s: string)
    requires |s| >= 1 && IsDigits(s) && s[0] != '0'
    ensures DecimalValue(s) >= 1
    decreases |s|
  {
    if |s| > 1 {
      DecimalPositive(s[..|s| - 1]);
    } else {
      assert s[..|s| - 1] == [];
    }
  }

  /** A leading zero does not change the value (`padStart(2, "0")`). */
  lemma {:induction false} LeadingZeros(s: string, n: nat)
    requires IsDigits(s)
    ensures IsDigits(Repeat('0', n) + s)
    ensures DecimalValue(Repeat('0', n) + s) == DecimalValue(s)
    decreases |s|
  {
    var t := Repeat('0', n) + s;
    if s == [] {
      assert t == Repeat('0', n);
      ZerosValue(n);
    } else {
      LeadingZeros(s[..|s| - 1], n);
      assert t[..|t| - 1] == Repeat('0', n) + s[..|s| - 1];
    }
  }

  lemma {:induction false} ZerosValue(n: nat)
    ensures DecimalValue(Repeat('0', n)) == 0
    decreases n
  {
    if n > 0 {
      var z := Repeat('0', n);
      ZerosValue(n - 1);
      assert z[..|z| - 1] == Repeat('0', n - 1);
    }
  }

  // Base16

  type Byte = b: int | 0 <= b < 256

  predicate IsLowerHex(c: char) {
    IsDigit(c) || 'a' <= c <= 'f'
  }

  /** The digit of a nibble in the alphabet `0123456789abcdef`. */
  function HexDigit(v: nat): (c: char)
    requires v < 16
    ensures IsLowerHex(c)
  {
    if v < 10 then ('0' as int + v) as char else ('a' as int + v - 10) as char
  }

  function HexValue(c: char): (v: nat)
    requires IsLowerHex(c)
    ensures v < 16 && HexDigit(v) == c
  {
    if IsDigit(c) then c as int - '0' as int else c as int - 'a' as int + 10
  }

  lemma HexDigitValue(v: nat)
    requires v < 16
    ensures HexValue(HexDigit(v)) == v
  {
  }

  /** Two lower-case hex characters per byte, high nibble first. */
  function HexEncode(bytes: seq<Byte>): (s: string)
    ensures |s| == 2 * |bytes|
    ensures forall i :: 0 <= i < |s| ==> IsLowerHex(s[i])
  {
    if bytes == [] then ""
    else [HexDigit(bytes[0] / 16), HexDigit(bytes[0] % 16)] + HexEncode(bytes[1..])
  }

  /** Base16 decoding; None for an odd length or a character outside the alphabet. */
  function HexDecode(s: string): (r: Option<seq<Byte>>)
    ensures r.Some? ==> |s| == 2 * |r.value|
    decreases |s|
  {
    if s == [] then Some([])
    else if |s| < 2 || !IsLowerHex(s[0]) || !IsLowerHex(s[1]) then None
    else
      match HexDecode(s[2..])
      case None => None
      case Some(rest) => Some([HexValue(s[0]) * 16 + HexValue(s[1])] + rest)
  }

  /** Decoding an encoding gives back the bytes. */
  lemma {:induction false} HexRoundTrip(bytes: seq<Byte>)
    ensures HexDecode(HexEncode(bytes)) == Some(bytes)
    decreases |bytes|
  {
    if bytes != [] {
      var s := HexEncode(bytes);
      var b := bytes[0];
      HexRoundTrip(bytes[1..]);
      HexDigitValue(b / 16);
      HexDigitValue(b % 16);
      assert s == [HexDigit(b / 16), HexDigit(b % 16)] + HexEncode(bytes[1..]);
      assert s[2..] == HexEncode(bytes[1..]);
      assert bytes == [b] + bytes[1..];
    }
  }
}

=== FILE: forgot_password.dfy ===
/** `POST /api/auth/forgot-password`: the request step of the reset flow.
    For a known email it writes a fresh random token with a 15-minute expiry,
    mails the six-digit code, and only after a successful send rewrites the
    stored token to `token:hash(code)`. */
module ForgotPassword {
  import opened JsText
  import opened Encoding
  import opened Store
  import opened Oracles
  import opened Http
  import opened Schemas
  import opened AuthLib

  const MsgUnknownEmail := "If an account with that email exists, we've sent a reset code"
  const MsgSent := "Password reset email sent successfully"
  const MsgBadEmail := "Invalid email format"
  const MsgFailed := "Failed to process your request"
  const ResetMinutes: int := 15

  /** The parsed JSON body; `email` is None when absent or not a string. */
  datatype Body = Body(email: Option<string>)

  predicate EmailAccepted(env: Env, body: Body) {
    body.email.Some? && env.isEmail(body.email.value)
  }

  /** The account a well-formed request names, if any. */
  function Target(db: Db, env: Env, body: Option<Body>): Option<User> {
    if body.Some? && EmailAccepted(env, body.value) then GetUserByEmail(db, body.value.email.value) else None
  }

  /** The token field the record holds once the code has been mailed. */
  function Encode(token: string, hashedOtp: string): string {
    token + ":" + hashedOtp
  }

  /** `body` is None when the request body is not JSON (the catch-all 500).
      `now`, `draw` and `random` are the clock, `Math.random` and
      `randomBytes(32)`; `mailOk` is whether the mail API answered ok. */
  function Post(db: Db, env: Env, body: Option<Body>, now: int, draw: OtpDraw, random: seq<Byte>, mailOk: bool): (s: Step)
    requires |random| == DefaultTokenBytes
    ensures body.None? ==> s == Step(db, Reply(500, MsgFailed), [])
    ensures body.Some? && !EmailAccepted(env, body.value) ==> s == Step(db, Reply(400, MsgBadEmail), [])
    ensures (&& body.Some? && EmailAccepted(env, body.value)
             && forall j :: 0 <= j < |db.users| ==> db.users[j].email != body.value.email.value) ==>
      s == Step(db, Reply(200, MsgUnknownEmail), [])
    ensures Target(db, env, body).None? ==> s.db == db && s.outbox == []
    ensures Target(db, env, body).Some? ==>
      var u := Target(db, env, body).value;
      var token := GenerateToken(random);
      var expires := now + ResetMinutes * MillisPerMinute;
      var sent := [ResetCodeMail(u.email, OtpCode(draw))];
      && u.email == body.value.email.value
      && (!mailOk ==> s == Step(db.(resets := db.resets[u.id := ResetRecord(token, expires)]), Reply(500, MsgFailed), sent))
      && (mailOk ==>
            s == Step(db.(resets := db.resets[u.id := ResetRecord(Encode(token, env.hash(OtpCode(draw))), expires)]),
                      Reply(200, MsgSent), sent))
  {
    if body.None? then Step(db, Reply(500, MsgFailed), [])
    else if !EmailAccepted(env, body.value) then Step(db, Reply(400, MsgBadEmail), [])
    else
      var email := body.value.email.value;
      match GetUserByEmail(db, email)
      case None => Step(db, Reply(200, MsgUnknownEmail), [])
      case Some(user) =>
        var otp := OtpCode(draw);
        var token := GenerateToken(random);
        var expires := CalculateExpiry(now, ResetMinutes);
        var pending := UpsertPasswordReset(db, user.id, token, expires).value;
        var sent := [ResetCodeMail(email, otp)];
        if !mailOk then Step(pending, Reply(500, MsgFailed), sent)
        else
          var stored := UpdateResetToken(pending, user.id, Encode(token, env.hash(otp))).value;
          Step(stored, Reply(200, MsgSent), sent)
  }

  /** The route computes its code and expiry inline; both agree with the
      library helpers called with their defaults, `generateOTP()` and
      `calculateExpiry()`. */
  lemma InlineMatchesLibrary(now: int, draw: OtpDraw)
    ensures OtpCode(draw) == GenerateOtp(draw, DefaultOtpLength)
    ensures now + ResetMinutes * MillisPerMinute == CalculateExpiry(now, DefaultExpiryMinutes)
  {
  }

  // Properties of the stored encoding.

  /** Splitting the stored field on ':' gives back the token and the digest,
      since neither a hex token nor a bcrypt digest contains ':'. */
  lemma EncodeRoundTrip(random: seq<Byte>, hashedOtp: string)
    requires ':' !in hashedOtp
    ensures Split(Encode(GenerateToken(random), hashedOtp), ':') == [GenerateToken(random), hashedOtp]
  {
    var parts := [GenerateToken(random), hashedOtp];
    SplitJoin(parts, ':');
    assert Join(parts, ':') == Encode(GenerateToken(random), hashedOtp);
  }

  /** After a successful request the record holds the random token and the
      digest of the mailed code, and never the code itself: the 64-character
      token and the 60-character digest both differ from a 6-digit code. */
  lemma StoredTokenHidesOtp(db: Db, env: Env, body: Option<Body>, now: int, draw: OtpDraw, random: seq<Byte>)
    requires HashShape(env) && |random| == DefaultTokenBytes
    requires Target(db, env, body).Some?
    ensures var s := Post(db, env, body, now, draw, random, true);
      var stored := s.db.resets[Target(db, env, body).value.id].token;
      && Split(stored, ':') == [GenerateToken(random), env.hash(OtpCode(draw))]
      && forall k :: 0 <= k < |Split(stored, ':')| ==> Split(stored, ':')[k] != OtpCode(draw)
  {
    var hashed := env.hash(OtpCode(draw));
    EncodeRoundTrip(random, hashed);
  }

  /** The record a request for a known account leaves behind. */
  function Written(env: Env, now: int, draw: OtpDraw, random: seq<Byte>, mailOk: bool): ResetRecord {
    var token := GenerateToken(random);
    ResetRecord(if mailOk then Encode(token, env.hash(OtpCode(draw))) else token,
                now + ResetMinutes * MillisPerMinute)
  }

  /** A request for a known account touches that account's record only, and
      its answer depends on nothing but the mail outcome. */
  lemma WritesOneRecord(db: Db, env: Env, body: Option<Body>, now: int, draw: OtpDraw, random: seq<Byte>, mailOk: bool)
    requires |random| == DefaultTokenBytes && Target(db, env, body).Some?
    ensures var s := Post(db, env, body, now, draw, random, mailOk);
      var u := Target(db, env, body).value;
      && s.db == db.(resets := db.resets[u.id := Written(env, now, draw, random, mailOk)])
      && s.response == if mailOk then Reply(200, MsgSent) else Reply(500, MsgFailed)
  {
  }

  /** A second request for the same account leaves exactly the record the
      second request would have written on its own: the first code is gone. */
  lemma LatestRequestWins(db: Db, env: Env, body: Option<Body>,
                          now1: int, draw1: OtpDraw, random1: seq<Byte>, ok1: bool,
                          now2: int, draw2: OtpDraw, random2: seq<Byte>, ok2: bool)
    requires |random1| == DefaultTokenBytes && |random2| == DefaultTokenBytes
    requires Target(db, env, body).Some?
    ensures var first := Post(db, env, body, now1, draw1, random1, ok1);
      var second := Post(first.db, env, body, now2, draw2, random2, ok2);
      var alone := Post(db, env, body, now2, draw2, random2, ok2);
      second.db == alone.db && second.response == alone.response
  {
    var first := Post(db, env, body, now1, draw1, random1, ok1);
    var u := Target(db, env, body).value;
    var r1 := Written(env, now1, draw1, random1, ok1);
    var r2 := Written(env, now2, draw2, random2, ok2);
    WritesOneRecord(db, env, body, now1, draw1, random1, ok1);
    SameUsersSameTarget(db, first.db, env, body);
    WritesOneRecord(first.db, env, body, now2, draw2, random2, ok2);
    WritesOneRecord(db, env, body, now2, draw2, random2, ok2);
    var second := Post(first.db, env, body, now2, draw2, random2, ok2);
    var alone := Post(db, env, body, now2, draw2, random2, ok2);
    SecondWriteWins(db, first.db, second.db, alone.db, u.id, r1, r2);
  }

  lemma SecondWriteWins(db: Db, first: Db, second: Db, alone: Db, id: UserId, r1: ResetRecord, r2: ResetRecord)
    requires first == db.(resets := db.resets[id := r1])
    requires second == first.(resets := first.resets[id := r2])
    requires alone == db.(resets := db.resets[id := r2])
    ensures second == alone
  {
    assert db.resets[id := r1][id := r2] == db.resets[id := r2];
  }

  lemma SameUsersSameTarget(db: Db, db2: Db, env: Env, body: Option<Body>)
    requires db2.users == db.users
    ensures Target(db2, env, body) == Target(db, env, body)
  {
  }
}

=== FILE: forms.dfy ===
/** The client-side form schemas of the sign-up page and the reset-password
    page, and what each page posts. A zod schema reports every failing check,
    field by field in declaration order and the object-level `refine` last;
    the form is submitted only when no issue is reported. */
module Forms {
  import opened JsText
  import opened Oracles
  import opened Schemas
  import Register
  import ResetPassword

  datatype FormField = Username | Email | Password | ConfirmPassword | Terms

  datatype Issue = Issue(path: FormField, message: string)

  const MsgUsernameShort := "Username must be at least 3 characters"
  const MsgUsernameLong := "Username must be less than 20 characters"
  const MsgUsernameChars := "Username can only contain letters, numbers and underscores"
  const MsgEmail := "Invalid email address"
  const MsgPasswordShort := "Password must be at least 8 characters"
  const MsgNoUpper := "Password must contain at least one uppercase letter"
  const MsgNoLower := "Password must contain at least one lowercase letter"
  const MsgNoDigit := "Password must contain at least one number"
  const MsgTerms := "You must accept the terms and conditions"
  const MsgMismatch := "Passwords do not match"

  function Check(ok: bool, path: FormField, message: string): (r: seq<Issue>)
    ensures r == [] <==> ok
    ensures forall q :: Reports(r, q) <==> !ok && q == path
  {
    if ok then []
    else
      var r := [Issue(path, message)];
      assert r[0].path == path;
      r
  }

  /** Some issue is attached to the field. */
  predicate Reports(issues: seq<Issue>, path: FormField) {
    exists k :: 0 <= k < |issues| && issues[k].path == path
  }

  lemma ReportsConcat(a: seq<Issue>, b: seq<Issue>)
    ensures forall q :: Reports(a + b, q) <==> Reports(a, q) || Reports(b, q)
  {
    forall q ensures Reports(a + b, q) <==> Reports(a, q) || Reports(b, q) {
      if Reports(a, q) {
        var k :| 0 <= k < |a| && a[k].path == q;
        assert (a + b)[k].path == q;
      }
      if Reports(b, q) {
        var k :| 0 <= k < |b| && b[k].path == q;
        assert (a + b)[|a| + k].path == q;
      }
      if Reports(a + b, q) {
        var k :| 0 <= k < |a + b| && (a + b)[k].path == q;
        if k >= |a| {
          assert b[k - |a|].path == q;
        }
      }
    }
  }

  function UsernameIssues(u: string): (r: seq<Issue>)
    ensures r == [] <==> UsernameOk(u)
    ensures forall k :: 0 <= k < |r| ==> r[k].path == Username
  {
    Check(Utf16Length(u) >= 3, Username, MsgUsernameShort)
      + Check(Utf16Length(u) <= 20, Username, MsgUsernameLong)
      + Check(UsernameCharsOk(u), Username, MsgUsernameChars)
  }

  function PasswordIssues(p: string): (r: seq<Issue>)
    ensures r == [] <==> StrongPassword(p)
    ensures forall k :: 0 <= k < |r| ==> r[k].path == Password
  {
    Check(Utf16Length(p) >= 8, Password, MsgPasswordShort)
      + Check(HasUpper(p), Password, MsgNoUpper)
      + Check(HasLower(p), Password, MsgNoLower)
      + Check(HasDigit(p), Password, MsgNoDigit)
  }

  /** `.min(8)` counts UTF-16 code units: three emoji and "Aa1" make a
      strong password of six characters. */
  lemma AstralCharactersCountTwice()
    ensures |"Aa1\U{1F600}\U{1F600}\U{1F600}"| == 6
    ensures PasswordIssues("Aa1\U{1F600}\U{1F600}\U{1F600}") == []
  {
    var p := "Aa1\U{1F600}\U{1F600}\U{1F600}";
    assert 'A' <= p[0] <= 'Z' && 'a' <= p[1] <= 'z' && IsDigit(p[2]);
  }

  // The sign-up page.

  datatype SignUpForm = SignUpForm(
    username: string, email: string, password: string, confirmPassword: string, terms: bool)

  /** `signUpSchema`: the mismatch is reported on `confirmPassword`. */
  function SignUpIssues(env: Env, f: SignUpForm): (r: seq<Issue>)
    ensures r == [] <==>
      && UsernameOk(f.username) && env.isEmail(f.email) && StrongPassword(f.password)
      && f.terms && f.password == f.confirmPassword
    ensures Reports(r, ConfirmPassword) <==> f.password != f.confirmPassword
    ensures Reports(r, Terms) <==> !f.terms
  {
    var a := UsernameIssues(f.username);
    var b := Check(env.isEmail(f.email), Email, MsgEmail);
    var c := PasswordIssues(f.password);
    var d := Check(f.terms, Terms, MsgTerms);
    var e := Check(f.password == f.confirmPassword, ConfirmPassword, MsgMismatch);
    ReportsConcat(a, b);
    ReportsConcat(a + b, c);
    ReportsConcat(a + b + c, d);
    ReportsConcat(a + b + c + d, e);
    a + b + c + d + e
  }

  /** What the page posts to the register route: only username, email and
      password, and only for a form without issues. */
  function SignUpSubmit(env: Env, f: SignUpForm): (r: Option<Register.Body>)
    ensures r.Some? <==> SignUpIssues(env, f) == []
    ensures r.Some? ==> r.value == Register.Body(Some(f.username), Some(f.email), Some(f.password))
  {
    if SignUpIssues(env, f) == [] then Some(Register.Body(Some(f.username), Some(f.email), Some(f.password)))
    else None
  }

  /** Whatever the sign-up page posts passes the register route's schema. */
  lemma SignUpPostPassesServer(env: Env, f: SignUpForm)
    requires SignUpSubmit(env, f).Some?
    ensures Register.SchemaOk(env, SignUpSubmit(env, f).value)
  {
  }

  // The reset-password page.

  datatype ResetForm = ResetForm(password: string, confirmPassword: string)

  /** `resetPasswordSchema`: the sign-up password policy plus the match. */
  function ResetIssues(f: ResetForm): (r: seq<Issue>)
    ensures r == [] <==> StrongPassword(f.password) && f.password == f.confirmPassword
    ensures Reports(r, ConfirmPassword) <==> f.password != f.confirmPassword
  {
    var c := PasswordIssues(f.password);
    var e := Check(f.password == f.confirmPassword, ConfirmPassword, MsgMismatch);
    ReportsConcat(c, e);
    c + e
  }

  /** `searchParams.get(name) || ""`. */
  function ParamOrEmpty(p: Option<string>): string {
    if p.Some? then p.value else ""
  }

  datatype ResetView = InvalidRequest | ResetFormView

  /** The page renders the "Invalid Request" card when either parameter is empty. */
  function ResetPageView(token: Option<string>, email: Option<string>): (v: ResetView)
    ensures v == InvalidRequest <==> !Truthy(token) || !Truthy(email)
  {
    if ParamOrEmpty(token) == "" || ParamOrEmpty(email) == "" then InvalidRequest else ResetFormView
  }

  datatype ResetSubmit = Blocked(issues: seq<Issue>) | MissingParameters | Posted(body: ResetPassword.Body)

  /** Validation runs first; `onSubmit` then refuses to send without both
      parameters and otherwise posts token, email and password only. */
  function ResetPageSubmit(token: Option<string>, email: Option<string>, f: ResetForm): (r: ResetSubmit)
    ensures r.Blocked? <==> ResetIssues(f) != []
    ensures r.MissingParameters? <==> ResetIssues(f) == [] && (!Truthy(token) || !Truthy(email))
    ensures r.Posted? ==> r.body == ResetPassword.Body(token, email, Some(f.password))
  {
    var issues := ResetIssues(f);
    if issues != [] then Blocked(issues)
    else if ParamOrEmpty(token) == "" || ParamOrEmpty(email) == "" then MissingParameters
    else Posted(ResetPassword.Body(Some(ParamOrEmpty(token)), Some(ParamOrEmpty(email)), Some(f.password)))
  }

  /** A posted body always gets past the route's missing-field check, and the
      password in it satisfies the strength policy the route itself omits. */
  lemma ResetPostPassesFieldCheck(token: Option<string>, email: Option<string>, f: ResetForm)
    requires ResetPageSubmit(token, email, f).Posted?
    ensures ResetPassword.FieldsPresent(ResetPageSubmit(token, email, f).body)
    ensures StrongPassword(ResetPageSubmit(token, email, f).body.password.value)
  {
  }

  /** `resetSuccess` after a series of submissions whose responses were ok or
      not: it starts false and only an ok response sets it. */
  function ResetSuccessAfter(responsesOk: seq<bool>): (success: bool)
    ensures success <==> exists k :: 0 <= k < |responsesOk| && responsesOk[k]
  {
    if responsesOk == [] then false
    else
      var before := ResetSuccessAfter(responsesOk[..|responsesOk| - 1]);
      assert forall k :: 0 <= k < |responsesOk| - 1 ==> responsesOk[..|responsesOk| - 1][k] == responsesOk[k];
      before || responsesOk[|responsesOk| - 1]
  }
}

=== FILE: http.dfy ===
/** What a route handler hands back: the store after the request, the JSON
    response and the outgoing calls it attempted (emails and internal fetches). */
module Http {
  import opened JsText
  import opened Store

  /** The part of a JSON response body beyond `message`. */
  datatype Payload =
    | NoPayload
    | VerifiedToken(token: string)
    | CreatedUser(id: UserId, username: Option<string>, email: string)

  datatype Response = Response(status: nat, message: string, payload: Payload)

  /** A side effect leaving the handler; its own outcome is a handler input. */
  datatype Outgoing =
    | ResetCodeMail(to: string, otp: string)
    | PasswordChangedMail(to: string)
    | WelcomeMail(to: string, name: Option<string>)
    | WelcomeRequest(email: string)
    | LoginNoticeRequest(email: string)

  datatype Step = Step(db: Db, response: Response, outbox: seq<Outgoing>)

  function Reply(status: nat, message: string): Response {
    Response(status, message, NoPayload)
  }
}

=== FILE: js_text.dfy ===
/** JavaScript value and string semantics that the handlers and pages rely on:
    null/undefined as `Option`, truthiness of strings, `String.prototype.split`,
    `Array.prototype.join`, `trim`, `padStart`, `substring` and ASCII case mapping. */
module JsText {

  /** `null`/`undefined` versus a present value. */
  datatype Option<+T> = None | Some(value: T)

  /** JavaScript truthiness of an optional string: null, undefined and "" are falsy. */
  predicate Truthy(s: Option<string>) {
    s.Some? && s.value != ""
  }

  /** `\d` in a JavaScript regular expression: ASCII digits only. */
  predicate IsDigit(c: char) {
    '0' <= c <= '9'
  }

  /** Every character is an ASCII digit (the empty string included). */
  predicate IsDigits(s: string) {
    forall i :: 0 <= i < |s| ==> IsDigit(s[i])
  }

  /** `/^\d+$/.test(s)`. */
  predicate MatchesDigits(s: string) {
    |s| > 0 && IsDigits(s)
  }

  /** First position of `c` in `s`, or None (`indexOf` returning -1). */
  function IndexOf(s: string, c: char): (r: Option<nat>)
    ensures r.None? <==> c !in s
    ensures r.Some? ==> r.value < |s| && s[r.value] == c && c !in s[..r.value]
  {
    if |s| == 0 then None
    else if s[0] == c then Some(0)
    else
      match IndexOf(s[1..], c)
      case None => None
      case Some(i) =>
        assert s[..i + 1] == [s[0]] + s[1..][..i];
        Some(i + 1)
  }

  /** `s.split(sep)` for a one-character separator: the maximal separator-free
      pieces, empty pieces included ("a  b" gives "a", "", "b"). */
  function Split(s: string, sep: char): (parts: seq<string>)
    ensures |parts| >= 1
    ensures forall k :: 0 <= k < |parts| ==> sep !in parts[k]
    decreases |s|
  {
    match IndexOf(s, sep)
    case None => [s]
    case Some(i) => [s[..i]] + Split(s[i + 1..], sep)
  }

  /** `parts.join(sep)` for a one-character separator. */
  function Join(parts: seq<string>, sep: char): string
  {
    if |parts| == 0 then ""
    else if |parts| == 1 then parts[0]
    else parts[0] + [sep] + Join(parts[1..], sep)
  }

  /** Joining the pieces of a split gives back the original string. */
  lemma {:induction false} JoinSplit(s: string, sep: char)
    ensures Join(Split(s, sep), sep) == s
    decreases |s|
  {
    var r := IndexOf(s, sep);
    if r.None? {
      assert Split(s, sep) == [s];
    } else {
      var i := r.value;
      var rest := s[i + 1..];
      var tail := Split(rest, sep);
      JoinSplit(rest, sep);
      assert Split(s, sep) == [s[..i]] + tail;
      JoinCons(s[..i], tail, sep);
      assert Join(Split(s, sep), sep) == s[..i] + [sep] + rest;
      assert s == s[..i] + [sep] + rest by {
        assert s[i] == sep;
      }
    }
  }

  lemma JoinCons(head: string, tail: seq<string>, sep: char)
    requires |tail| >= 1
    ensures Join([head] + tail, sep) == head + [sep] + Join(tail, sep)
  {
  }

  /** Splitting a join of separator-free pieces gives back the pieces. */
  lemma {:induction false} SplitJoin(parts: seq<string>, sep: char)
    requires |parts| >= 1
    requires forall k :: 0 <= k < |parts| ==> sep !in parts[k]
    ensures Split(Join(parts, sep), sep) == parts
    decreases |parts|
  {
    if |parts| == 1 {
      assert Join(parts, sep) == parts[0];
    } else {
      var s := Join(parts, sep);
      var head := parts[0];
      assert s == head + [sep] + Join(parts[1..], sep);
      var r := IndexOf(s, sep);
      assert s[|head|] == sep;
      assert s[..|head|] == head;
      assert r == Some(|head|);
      assert s[|head| + 1..] == Join(parts[1..], sep);
      SplitJoin(parts[1..], sep);
      assert parts == [head] + parts[1..];
    }
  }

  /** WhiteSpace and LineTerminator code points as `String.prototype.trim` knows them. */
  predicate IsJsWhitespace(c: char) {
    || c == '\t' || c == '\n' || c == '\U{B}' || c == '\U{C}' || c == '\r' || c == ' '
    || c == '\U{A0}' || c == '\U{1680}' || ('\U{2000}' <= c <= '\U{200A}')
    || c == '\U{2028}' || c == '\U{2029}' || c == '\U{202F}' || c == '\U{205F}'
    || c == '\U{3000}' || c == '\U{FEFF}'
  }

  /** Drops leading whitespace: the result is a suffix of `s`. */
  function TrimStart(s: string): (r: string)
    ensures |r| <= |s| && r == s[|s| - |r|..]
    ensures forall k :: 0 <= k < |s| - |r| ==> IsJsWhitespace(s[k])
    ensures r == [] || !IsJsWhitespace(r[0])
  {
    if |s| > 0 && IsJsWhitespace(s[0]) then TrimStart(s[1..]) else s
  }

  /** Drops trailing whitespace: the result is a prefix of `s`. */
  function TrimEnd(s: string): (r: string)
    ensures |r| <= |s| && r == s[..|r|]
    ensures forall k :: |r| <= k < |s| ==> IsJsWhitespace(s[k])
    ensures r == [] || !IsJsWhitespace(r[|r| - 1])
  {
    if |s| > 0 && IsJsWhitespace(s[|s| - 1]) then TrimEnd(s[..|s| - 1]) else s
  }

  /** `s.trim()`. */
  function Trim(s: string): string {
    TrimEnd(TrimStart(s))
  }

  /** ASCII part of `toUpperCase`; other characters are left as they are. */
  function UpperChar(c: char): char {
    if 'a' <= c <= 'z' then (c as int - 32) as char else c
  }

  function ToUpper(s: string): (r: string)
    ensures |r| == |s|
  {
    seq(|s|, i requires 0 <= i < |s| => UpperChar(s[i]))
  }

  function Repeat(c: char, n: nat): (r: string)
    ensures |r| == n && forall i :: 0 <= i < n ==> r[i] == c
  {
    if n == 0 then "" else [c] + Repeat(c, n - 1)
  }

  /** `s.padStart(n, fill)` for a one-character fill. */
  function PadStart(s: string, n: nat, fill: char): (r: string)
    ensures |r| == if |s| >= n then |s| else n
  {
    if |s| >= n then s else Repeat(fill, n - |s|) + s
  }

  /** `s.substring(0, end)`: `end` is clamped to `[0, |s|]`. */
  function Prefix(s: string, end: int): (r: string)
    ensures |r| == if end <= 0 then 0 else if end >= |s| then |s| else end
    ensures r == s[..|r|]
  {
    if end <= 0 then "" else if end >= |s| then s else s[..end]
  }

  /** UTF-16 code units of one character: two for a character outside the
      Basic Multilingual Plane, which JavaScript stores as a surrogate pair. */
  function Utf16Units(c: char): (n: nat)
    ensures n == 2 <==> c as int >= 0x1_0000
  {
    if c as int >= 0x1_0000 then 2 else 1
  }

  /** `s.length` in JavaScript, which zod's `.min`, `.max` and `.length`
      compare: the number of UTF-16 code units. */
  function Utf16Length(s: string): nat {
    if s == [] then 0 else Utf16Units(s[0]) + Utf16Length(s[1..])
  }

  /** A string counts between one and two code units per character, and
      exactly one per character when all of them lie in the Basic
      Multilingual Plane. */
  lemma {:induction false} Utf16LengthBound(s: string)
    ensures |s| <= Utf16Length(s) <= 2 * |s|
    ensures (forall i :: 0 <= i < |s| ==> s[i] as int < 0x1_0000) ==> Utf16Length(s) == |s|
    decreases |s|
  {
    if s != [] {
      Utf16LengthBound(s[1..]);
      if forall i :: 0 <= i < |s| ==> s[i] as int < 0x1_0000 {
        assert forall i :: 0 <= i < |s[1..]| ==> s[1..][i] == s[i + 1];
      }
    }
  }
}

=== FILE: oracles.dfy ===
/** The libraries the handlers call but whose insides are not modelled:
    zod's `.email()` check, bcrypt's `hash`/`compare` and `jwt.verify`.
    Each is a parameter of the handlers; what the proofs assume of them is
    stated as a predicate and required only by the lemmas that need it. */
module Oracles {
  import opened JsText

  /** Claims of a verified JWT; a claim missing from the payload is None. */
  datatype Claims = Claims(userId: Option<string>, email: Option<string>)

  datatype Env = Env(
    isEmail: string -> bool,
    hash: string -> string,
    compare: (string, string) -> bool,
    decode: string -> Option<Claims>)

  /** `bcrypt.compare(s, bcrypt.hash(s))` holds. */
  ghost predicate HashSound(env: Env) {
    forall s :: env.compare(s, env.hash(s))
  }

  /** A bcrypt digest is 60 characters from `$./A-Za-z0-9`, so never contains ':'. */
  ghost predicate HashShape(env: Env) {
    forall s :: |env.hash(s)| == 60 && ':' !in env.hash(s)
  }

  /** A bcrypt digest is never the empty string. */
  ghost predicate HashNonEmpty(env: Env) {
    forall s :: env.hash(s) != ""
  }

  /** bcrypt reads at most this many bytes of the UTF-8 encoding of a secret. */
  const BcryptMaxBytes := 72

  /** Number of bytes of the UTF-8 encoding of a code point. */
  function Utf8Size(c: char): (n: nat)
    ensures 1 <= n <= 4
  {
    if c as int < 0x80 then 1
    else if c as int < 0x800 then 2
    else if c as int < 0x10000 then 3
    else 4
  }

  /** Length in bytes of the UTF-8 encoding of a string. */
  function Utf8Length(s: string): nat {
    if s == [] then 0 else Utf8Size(s[0]) + Utf8Length(s[1..])
  }

  /** The whole secret takes part in the digest and nothing else does.
      bcrypt ignores every byte past the 72nd, so longer secrets sharing a
      72-byte prefix collide. `bcryptjs` also appends a NUL byte and repeats
      the key up to 72 bytes, so "a" and "a\0a" collide; without a NUL in
      the secret that repetition is unambiguous. */
  predicate WithinBcryptLimit(s: string) {
    Utf8Length(s) <= BcryptMaxBytes && '\0' !in s
  }

  /** Idealised collision resistance, for secrets bcrypt reads in full and
      without a NUL: a digest only verifies its own secret. */
  ghost predicate HashBinding(env: Env) {
    forall s, t :: WithinBcryptLimit(s) && WithinBcryptLimit(t) && env.compare(s, env.hash(t)) ==> s == t
  }

  /** No code point takes more than four bytes. */
  lemma {:induction false} Utf8LengthBound(s: string)
    ensures |s| <= Utf8Length(s) <= 4 * |s|
    decreases |s|
  {
    if s != [] {
      Utf8LengthBound(s[1..]);
    }
  }

  /** A JWS compact serialisation (section 7.1 of RFC 7515, which RFC 7519 builds
      on) has exactly two '.' separators, so `jwt.verify` rejects anything else. */
  ghost predicate DecodeNeedsCompactForm(env: Env) {
    forall t :: env.decode(t).Some? ==> |Split(t, '.')| == 3
  }

  // The assumptions are satisfiable together, in the combinations the
  // lemmas require them.

  /** A digest that is the secret behind a marker, checked by recomputation. */
  function DigestEnv(): Env {
    Env(_ => true, s => "#" + s, (s, d) => d == "#" + s, _ => None)
  }

  /** A digest that is the same 60 characters for every secret, with a
      `compare` that accepts everything (`sound`) or nothing. */
  function ShapeEnv(sound: bool): Env {
    Env(_ => true, _ => Repeat('$', 60), (_, _) => sound, _ => None)
  }

  lemma DigestEnvSatisfies()
    ensures var env := DigestEnv();
      HashSound(env) && HashNonEmpty(env) && HashBinding(env) && DecodeNeedsCompactForm(env)
  {
    var env := DigestEnv();
    forall s, t | env.compare(s, env.hash(t)) ensures s == t {
      assert ("#" + s)[1..] == s && ("#" + t)[1..] == t;
    }
  }

  lemma ShapeEnvSatisfies()
    ensures HashSound(ShapeEnv(true)) && HashShape(ShapeEnv(true)) && HashNonEmpty(ShapeEnv(true))
    ensures HashShape(ShapeEnv(false)) && HashBinding(ShapeEnv(false))
  {
    var h := Repeat('$', 60);
    assert |h| == 60;
    assert forall i :: 0 <= i < |h| ==> h[i] == '$';
  }
}

=== FILE: otp_entry.dfy ===
/** The six-box code entry of the verify-OTP page: the `otpValues` state and
    the change, key-down and paste handlers that edit it, the auto-submit
    test, the countdown and its `MM:SS` rendering. A handler's result is the
    new state together with the box it moves the focus to, if any. */
module OtpEntry {
  import opened JsText
  import opened Encoding
  import opened Schemas

  const SlotCount: nat := 6
  const LastSlot: nat := 5
  /** Five minutes, in seconds. */
  const CountdownStart: nat := 300

  /** `otpValues`: the text of each input box. */
  type Slots = seq<string>

  /** What a box can hold: nothing or one ASCII digit. */
  predicate IsSlotValue(v: string) {
    v == "" || (|v| == 1 && IsDigit(v[0]))
  }

  /** The state invariant: six boxes, each empty or one digit. */
  predicate WellFormed(slots: Slots) {
    |slots| == SlotCount && forall i :: 0 <= i < |slots| ==> IsSlotValue(slots[i])
  }

  /** `Array(6).fill("")`. */
  function Blank(): (slots: Slots)
    ensures WellFormed(slots)
    ensures forall i :: 0 <= i < |slots| ==> slots[i] == ""
  {
    seq(SlotCount, _ => "")
  }

  datatype Entry = Entry(slots: Slots, focus: Option<nat>)

  /** `slots.join("")`. */
  function Concat(slots: Slots): string {
    if slots == [] then "" else slots[0] + Concat(slots[1..])
  }

  /** The number of non-empty boxes. */
  function FilledCount(slots: Slots): (n: nat)
    ensures n <= |slots|
  {
    if slots == [] then 0 else (if slots[0] != "" then 1 else 0) + FilledCount(slots[1..])
  }

  /** One box per character. */
  function Singletons(s: string): (slots: Slots)
    ensures |slots| == |s|
    ensures forall i :: 0 <= i < |s| ==> slots[i] == [s[i]]
  {
    seq(|s|, i requires 0 <= i < |s| => [s[i]])
  }

  // The joined code.

  /** With boxes of at most one digit, the joined text has one digit per
      filled box, and it has a digit for every box exactly when none is empty. */
  lemma {:induction false} ConcatOfSlotValues(slots: Slots)
    requires forall i :: 0 <= i < |slots| ==> IsSlotValue(slots[i])
    ensures |Concat(slots)| == FilledCount(slots)
    ensures IsDigits(Concat(slots))
    ensures FilledCount(slots) == |slots| <==> forall i :: 0 <= i < |slots| ==> slots[i] != ""
    decreases |slots|
  {
    if slots != [] {
      var tail := slots[1..];
      ConcatOfSlotValues(tail);
      var c := Concat(slots);
      assert c == slots[0] + Concat(tail);
      forall k | 0 <= k < |c| ensures IsDigit(c[k]) {
        if k >= |slots[0]| {
          assert c[k] == Concat(tail)[k - |slots[0]|];
        }
      }
      if FilledCount(slots) == |slots| {
        forall i | 0 <= i < |slots| ensures slots[i] != "" {
          if i > 0 {
            assert slots[i] == tail[i - 1];
          }
        }
      }
    }
  }

  lemma {:induction false} ConcatSingletons(s: string)
    ensures Concat(Singletons(s)) == s
    decreases |s|
  {
    if s != [] {
      ConcatSingletons(s[1..]);
      assert Singletons(s)[1..] == Singletons(s[1..]);
      assert s == [s[0]] + s[1..];
    }
  }

  /** The auto-submit effect's test: the joined text matches `/^\d{6}$/`. */
  predicate AutoSubmits(slots: Slots) {
    |Concat(slots)| == 6 && IsDigits(Concat(slots))
  }

  /** The page submits on its own exactly when every box is filled, and what
      it submits passes the page's and the route's six-digit schema. */
  lemma AutoSubmitsIffFull(slots: Slots)
    requires WellFormed(slots)
    ensures AutoSubmits(slots) <==> forall i :: 0 <= i < |slots| ==> slots[i] != ""
    ensures AutoSubmits(slots) ==> IsOtpCode(Concat(slots))
  {
    ConcatOfSlotValues(slots);
  }

  // Editing.

  /** `handleChange(index, value)`: only the first character counts; a
      non-digit is ignored; anything else replaces that box alone, and a
      digit moves the focus to the next box. */
  function HandleChange(slots: Slots, index: nat, value: string): (e: Entry)
    requires |slots| == SlotCount && index < SlotCount
    ensures var v := Prefix(value, 1);
      && (v != "" && !IsDigit(v[0]) ==> e == Entry(slots, None))
      && (v == "" || IsDigit(v[0]) ==> e.slots == slots[index := v])
      && (e.focus.Some? <==> v != "" && IsDigit(v[0]) && index < LastSlot)
    ensures e.focus.Some? ==> e.focus.value == index + 1
    ensures WellFormed(slots) ==> WellFormed(e.slots)
  {
    var v := Prefix(value, 1);
    if v != "" && !IsDigit(v[0]) then Entry(slots, None)
    else Entry(slots[index := v], if v != "" && index < LastSlot then Some(index + 1) else None)
  }

  datatype Key = Backspace | ArrowLeft | ArrowRight | OtherKey

  /** `handleKeyDown(index, key)`: Backspace clears the box, or when it is
      already empty clears the previous one and focuses it; the arrows move
      the focus within the row. */
  function HandleKeyDown(slots: Slots, index: nat, key: Key): (e: Entry)
    requires |slots| == SlotCount && index < SlotCount
    ensures |e.slots| == SlotCount
    ensures key != Backspace ==> e.slots == slots
    ensures key == Backspace && slots[index] != "" ==> e == Entry(slots[index := ""], None)
    ensures key == Backspace && slots[index] == "" && index > 0 ==> e == Entry(slots[index - 1 := ""], Some(index - 1))
    ensures key == Backspace && slots[index] == "" && index == 0 ==> e == Entry(slots, None)
    ensures key == ArrowLeft ==> e.focus == if index > 0 then Some(index - 1) else None
    ensures key == ArrowRight ==> e.focus == if index < LastSlot then Some(index + 1) else None
    ensures key == OtherKey ==> e.focus.None?
    ensures WellFormed(slots) ==> WellFormed(e.slots)
  {
    match key
    case Backspace =>
      if slots[index] != "" then Entry(slots[index := ""], None)
      else if index > 0 then Entry(slots[index - 1 := ""], Some(index - 1))
      else Entry(slots, None)
    case ArrowLeft => Entry(slots, if index > 0 then Some(index - 1) else None)
    case ArrowRight => Entry(slots, if index < LastSlot then Some(index + 1) else None)
    case OtherKey => Entry(slots, None)
  }

  lemma {:induction false} FilledCountUpdate(slots: Slots, i: nat, v: string)
    requires i < |slots|
    ensures FilledCount(slots[i := v]) + (if slots[i] != "" then 1 else 0)
         == FilledCount(slots) + (if v != "" then 1 else 0)
    decreases |slots|
  {
    if i > 0 {
      FilledCountUpdate(slots[1..], i - 1, v);
      assert slots[i := v][1..] == slots[1..][i - 1 := v];
    }
  }

  /** A key press never fills a box, and Backspace empties exactly one box
      unless it is pressed on an empty first box. */
  lemma KeyDownNeverFills(slots: Slots, index: nat, key: Key)
    requires |slots| == SlotCount && index < SlotCount
    ensures FilledCount(HandleKeyDown(slots, index, key).slots) <= FilledCount(slots)
    ensures key == Backspace && (slots[index] != "" || (index > 0 && slots[index - 1] != "")) ==>
      FilledCount(HandleKeyDown(slots, index, key).slots) == FilledCount(slots) - 1
  {
    if key == Backspace {
      if slots[index] != "" {
        FilledCountUpdate(slots, index, "");
      } else if index > 0 {
        FilledCountUpdate(slots, index - 1, "");
      }
    }
  }

  /** The first empty box (`findIndex(val => !val)`), or None. */
  function FirstEmpty(slots: Slots): (r: Option<nat>)
    ensures r.None? <==> forall i :: 0 <= i < |slots| ==> slots[i] != ""
    ensures r.Some? ==> r.value < |slots| && slots[r.value] == ""
    ensures r.Some? ==> forall i :: 0 <= i < r.value ==> slots[i] != ""
  {
    if slots == [] then None
    else if slots[0] == "" then Some(0)
    else
      match FirstEmpty(slots[1..])
      case None => None
      case Some(i) => Some(i + 1)
  }

  /** The pasted characters written over the first boxes, at most six. */
  function Overwrite(slots: Slots, t: string): (r: Slots)
    requires |slots| == SlotCount
    ensures |r| == SlotCount
    ensures forall i :: 0 <= i < SlotCount ==> r[i] == if i < |t| then [t[i]] else slots[i]
  {
    var m := if |t| < SlotCount then |t| else SlotCount;
    Singletons(t[..m]) + slots[m..]
  }

  /** An accepted paste of the digits `t`: overwrite, then focus the first
      empty box or the last one. */
  function PasteDigits(slots: Slots, t: string): (e: Entry)
    requires |slots| == SlotCount && MatchesDigits(t)
    ensures |e.slots| == SlotCount
    ensures forall i :: 0 <= i < SlotCount ==> e.slots[i] == if i < |t| then [t[i]] else slots[i]
    ensures e.focus.Some?
    ensures FirstEmpty(e.slots).None? ==> e.focus.value == LastSlot
    ensures FirstEmpty(e.slots).Some? ==> e.focus.value == FirstEmpty(e.slots).value
    ensures WellFormed(slots) ==> WellFormed(e.slots)
  {
    var next := Overwrite(slots, t);
    assert WellFormed(slots) ==> WellFormed(next) by {
      if WellFormed(slots) {
        forall i | 0 <= i < SlotCount ensures IsSlotValue(next[i]) {
          if i < |t| {
            assert IsDigit(t[i]);
          }
        }
      }
    }
    Entry(next, Some(match FirstEmpty(next) case None => LastSlot case Some(i) => i))
  }

  /** `handlePaste`, attached to the first box only: the clipboard text is
      trimmed; a string of digits is pasted, and any other text changes
      nothing and moves no focus. A paste into any other box arrives as a
      change event and goes through `HandleChange`. */
  function HandlePaste(slots: Slots, data: string): (e: Entry)
    requires |slots| == SlotCount
    ensures !MatchesDigits(Trim(data)) ==> e == Entry(slots, None)
    ensures MatchesDigits(Trim(data)) ==> e == PasteDigits(slots, Trim(data))
  {
    var t := Trim(data);
    if MatchesDigits(t) then PasteDigits(slots, t) else Entry(slots, None)
  }

  /** Pasting six or more digits fills every box with the first six, leaves
      the focus on the last box and triggers the auto-submit. */
  lemma PasteFullCode(slots: Slots, t: string)
    requires |slots| == SlotCount && MatchesDigits(t) && |t| >= SlotCount
    ensures var e := PasteDigits(slots, t);
      && Concat(e.slots) == t[..SlotCount] && AutoSubmits(e.slots) && e.focus == Some(LastSlot)
  {
    var e := PasteDigits(slots, t);
    assert e.slots == Singletons(t[..SlotCount]) by {
      assert forall i :: 0 <= i < SlotCount ==> e.slots[i] == [t[i]];
    }
    ConcatSingletons(t[..SlotCount]);
    assert forall i :: 0 <= i < SlotCount ==> e.slots[i] != "";
    assert WellFormed(e.slots) by {
      forall i | 0 <= i < SlotCount ensures IsSlotValue(e.slots[i]) {
        assert IsDigit(t[i]);
      }
    }
    AutoSubmitsIffFull(e.slots);
  }

  /** Pasting fewer than six digits into an empty row focuses the box after
      the last pasted digit. */
  lemma PasteShortFocus(t: string)
    requires MatchesDigits(t) && |t| < SlotCount
    ensures PasteDigits(Blank(), t).focus == Some(|t|)
  {
    var e := PasteDigits(Blank(), t);
    assert e.slots[|t|] == "";
    assert forall i :: 0 <= i < |t| ==> e.slots[i] != "";
  }

  /** Typing digits one after another, each into the box the previous one
      focused. */
  function TypeKeys(slots: Slots, index: nat, keys: string): (r: Slots)
    requires |slots| == SlotCount && index < SlotCount
    ensures |r| == SlotCount
    decreases |keys|
  {
    if keys == [] then slots
    else
      var e := HandleChange(slots, index, [keys[0]]);
      TypeKeys(e.slots, if e.focus.Some? then e.focus.value else index, keys[1..])
  }

  /** Typing one digit into a box. */
  lemma TypeOneDigit(slots: Slots, index: nat, k: char)
    requires |slots| == SlotCount && index < SlotCount && IsDigit(k)
    ensures HandleChange(slots, index, [k])
         == Entry(slots[index := [k]], if index < LastSlot then Some(index + 1) else None)
  {
    assert Prefix([k], 1) == [k];
  }

  /** Typing the remaining digits from a box fills it and every box after
      it, one digit each, and leaves the boxes before it alone. */
  lemma {:induction false} TypingFillsBoxes(slots: Slots, index: nat, keys: string)
    requires |slots| == SlotCount && index < SlotCount
    requires |keys| == SlotCount - index && IsDigits(keys)
    ensures var r := TypeKeys(slots, index, keys);
      forall i :: 0 <= i < SlotCount ==> r[i] == if i < index then slots[i] else [keys[i - index]]
    decreases |keys|
  {
    var k := keys[0];
    var next := slots[index := [k]];
    TypeOneDigit(slots, index, k);
    if index < LastSlot {
      var r := TypeKeys(slots, index, keys);
      assert r == TypeKeys(next, index + 1, keys[1..]);
      TypingFillsBoxes(next, index + 1, keys[1..]);
      forall i | 0 <= i < SlotCount
        ensures r[i] == if i < index then slots[i] else [keys[i - index]]
      {
        if i > index {
          assert keys[1..][i - (index + 1)] == keys[i - index];
        }
      }
    } else {
      assert TypeKeys(slots, index, keys) == TypeKeys(next, index, keys[1..]);
      assert keys[1..] == [];
    }
  }

  /** Typing a six-digit code from the first box of an empty row submits
      exactly that code. */
  lemma TypingCodeSubmitsIt(code: string)
    requires IsOtpCode(code)
    ensures Concat(TypeKeys(Blank(), 0, code)) == code
    ensures AutoSubmits(TypeKeys(Blank(), 0, code))
  {
    TypingFillsBoxes(Blank(), 0, code);
    assert TypeKeys(Blank(), 0, code) == Singletons(code);
    ConcatSingletons(code);
  }

  // The countdown.

  /** One interval callback: `prev <= 1 ? 0 : prev - 1`. */
  function Tick(prev: int): (next: int)
    ensures next >= 0
    ensures next <= prev || prev < 0
  {
    if prev <= 1 then 0 else prev - 1
  }

  function AfterTicks(start: int, n: nat): int {
    if n == 0 then start else Tick(AfterTicks(start, n - 1))
  }

  /** After n seconds a countdown from `start` shows `max(start - n, 0)`: it
      never goes below zero and stays there once it arrives. */
  lemma {:induction false} CountdownValue(start: nat, n: nat)
    ensures AfterTicks(start, n) == if n >= start then 0 else start - n
    decreases n
  {
    if n > 0 {
      CountdownValue(start, n - 1);
    }
  }

  /** The page's five-minute countdown reaches zero after exactly 300 ticks
      and then stays there. */
  lemma CountdownFromStart(n: nat)
    ensures AfterTicks(CountdownStart, n) == 0 <==> n >= CountdownStart
    ensures n < CountdownStart ==> AfterTicks(CountdownStart, n) == CountdownStart - n
  {
    CountdownValue(CountdownStart, n);
  }

  /** `n.toString().padStart(2, '0')`. */
  function TwoDigits(n: nat): string {
    PadStart(ToDecimal(n), 2, '0')
  }

  /** `formatTime(seconds)`: minutes and seconds, each padded to two digits;
      below 100 minutes the text is always `MM:SS`. */
  function FormatTime(seconds: nat): (r: string)
    ensures seconds < 6000 ==> |r| == 5 && r[2] == ':' && IsDigits(r[..2]) && IsDigits(r[3..])
    ensures seconds < 6000 ==>
      DecimalValue(r[..2]) == seconds / 60 && DecimalValue(r[3..]) == seconds % 60
  {
    TwoDigitsValue(seconds / 60);
    TwoDigitsValue(seconds % 60);
    var minutes := TwoDigits(seconds / 60);
    var rest := TwoDigits(seconds % 60);
    var r := minutes + ":" + rest;
    assert seconds < 6000 ==> r[..2] == minutes && r[3..] == rest;
    r
  }

  /** Reads an `MM:SS` text back into seconds. */
  function ParseTime(t: string): Option<nat> {
    var parts := Split(t, ':');
    if |parts| == 2 && IsDigits(parts[0]) && IsDigits(parts[1]) then
      Some(DecimalValue(parts[0]) * 60 + DecimalValue(parts[1]))
    else None
  }

  lemma TwoDigitsValue(n: nat)
    ensures IsDigits(TwoDigits(n)) && DecimalValue(TwoDigits(n)) == n
    ensures n < 100 ==> |TwoDigits(n)| == 2
  {
    var s := ToDecimal(n);
    DecimalRoundTrip(n);
    if |s| < 2 {
      LeadingZeros(s, 2 - |s|);
    }
    if n < 100 {
      assert Pow10(2) == 100;
      DecimalShort(n, 2);
    }
  }

  /** Two digit strings joined by ':' read back as minutes and seconds. */
  lemma ParseDigitPair(a: string, b: string)
    requires IsDigits(a) && IsDigits(b)
    ensures ParseTime(a + ":" + b) == Some(DecimalValue(a) * 60 + DecimalValue(b))
  {
    NoColonInDigits(a);
    NoColonInDigits(b);
    var parts := [a, b];
    assert Join(parts, ':') == a + ":" + b by {
      assert parts[1..] == [b];
    }
    SplitJoin(parts, ':');
    ParseParts(a + ":" + b, a, b);
  }

  /** A text that splits into two digit strings reads as minutes and seconds. */
  lemma ParseParts(t: string, a: string, b: string)
    requires IsDigits(a) && IsDigits(b) && Split(t, ':') == [a, b]
    ensures ParseTime(t) == Some(DecimalValue(a) * 60 + DecimalValue(b))
  {
    var parts := Split(t, ':');
    assert |parts| == 2 && parts[0] == a && parts[1] == b;
  }

  lemma NoColonInDigits(s: string)
    requires IsDigits(s)
    ensures ':' !in s
  {
    forall k | 0 <= k < |s| ensures s[k] != ':' {
      assert IsDigit(s[k]);
    }
  }

  /** The rendering loses nothing: reading it back gives the seconds, so
      different counts always display differently. */
  lemma FormatTimeRoundTrip(seconds: nat)
    ensures ParseTime(FormatTime(seconds)) == Some(seconds)
  {
    var minutes := TwoDigits(seconds / 60);
    var rest := TwoDigits(seconds % 60);
    TwoDigitsValue(seconds / 60);
    TwoDigitsValue(seconds % 60);
    assert FormatTime(seconds) == minutes + ":" + rest;
    ParseDigitPair(minutes, rest);
  }
}

=== FILE: register.dfy ===
/** `POST /api/auth/register`: schema check, duplicate email before duplicate
    username, then the user is stored with the digest of the password and the
    welcome-email route is called without waiting on its outcome. */
module Register {
  import opened JsText
  import opened Store
  import opened Oracles
  import opened Http
  import opened Schemas

  const MsgBadInput := "Invalid input data"
  const MsgEmailTaken := "Email already in use"
  const MsgUsernameTaken := "Username already taken"
  const MsgCreated := "User created successfully"
  const MsgInternal := "Internal server error"

  datatype Body = Body(username: Option<string>, email: Option<string>, password: Option<string>)

  /** `registerSchema`: the server asks only for eight UTF-16 code units of
      password. */
  predicate SchemaOk(env: Env, body: Body) {
    && body.username.Some? && UsernameOk(body.username.value)
    && body.email.Some? && env.isEmail(body.email.value)
    && body.password.Some? && Utf16Length(body.password.value) >= 8
  }

  predicate EmailTaken(db: Db, email: string) {
    exists j :: 0 <= j < |db.users| && db.users[j].email == email
  }

  predicate UsernameTaken(db: Db, username: string) {
    exists j :: 0 <= j < |db.users| && db.users[j].username == Some(username)
  }

  /** `body` is None when the request body is not JSON; `newId` is the id the
      database assigns to the new row. */
  function Post(db: Db, env: Env, body: Option<Body>, newId: UserId): (s: Step)
    ensures s.response.status != 201 ==> s.db == db && s.outbox == []
    ensures body.None? ==> s.response == Reply(500, MsgInternal)
    ensures body.Some? && !SchemaOk(env, body.value) ==> s.response == Reply(400, MsgBadInput)
    ensures body.Some? && SchemaOk(env, body.value) && EmailTaken(db, body.value.email.value) ==>
      s.response == Reply(400, MsgEmailTaken)
    ensures (&& body.Some? && SchemaOk(env, body.value) && !EmailTaken(db, body.value.email.value)
             && UsernameTaken(db, body.value.username.value)) ==>
      s.response == Reply(400, MsgUsernameTaken)
    ensures s.response.status == 201 <==>
      && body.Some? && SchemaOk(env, body.value)
      && !EmailTaken(db, body.value.email.value) && !UsernameTaken(db, body.value.username.value)
      && !HasUser(db.users, newId)
    ensures s.response.status == 201 ==>
      var b := body.value;
      && s.db.resets == db.resets
      && s.db.users == db.users + [User(newId, None, b.username, b.email.value, None, Some(env.hash(b.password.value)))]
      && s.response == Response(201, MsgCreated, CreatedUser(newId, b.username, b.email.value))
      && s.outbox == [WelcomeRequest(b.email.value)]
  {
    if body.None? then Step(db, Reply(500, MsgInternal), [])
    else if !SchemaOk(env, body.value) then Step(db, Reply(400, MsgBadInput), [])
    else
      var username := body.value.username.value;
      var email := body.value.email.value;
      if GetUserByEmail(db, email).Some? then Step(db, Reply(400, MsgEmailTaken), [])
      else if GetUserByUsername(db, username).Some? then Step(db, Reply(400, MsgUsernameTaken), [])
      else
        // A clash on the generated id is a unique violation, hence the catch-all.
        match CreateUser(db, newId, username, email, env.hash(body.value.password.value))
        case None => Step(db, Reply(500, MsgInternal), [])
        case Some(created) =>
          Step(created, Response(201, MsgCreated, CreatedUser(newId, Some(username), email)), [WelcomeRequest(email)])
  }

  /** Registration keeps the store's unique keys. */
  lemma PostKeepsValid(db: Db, env: Env, body: Option<Body>, newId: UserId)
    requires Valid(db)
    ensures Valid(Post(db, env, body, newId).db)
  {
    var s := Post(db, env, body, newId);
    if s.response.status == 201 {
      var b := body.value;
      CreateUserKeepsKeys(db, newId, b.username.value, b.email.value, env.hash(b.password.value));
    }
  }

  /** The server schema is weaker than the sign-up page's: "password" has no
      capital letter or digit and is still accepted. */
  lemma ServerPasswordRuleIsLengthOnly(env: Env)
    requires env.isEmail("a@b.co")
    ensures SchemaOk(env, Body(Some("alice"), Some("a@b.co"), Some("password")))
    ensures !StrongPassword("password")
  {
  }

  /** Four emoji are eight UTF-16 code units, enough for the server's
      password rule. */
  lemma FourEmojiPasswordAccepted(env: Env)
    requires env.isEmail("a@b.co")
    ensures |"\U{1F600}\U{1F600}\U{1F600}\U{1F600}"| == 4
    ensures SchemaOk(env, Body(Some("alice"), Some("a@b.co"), Some("\U{1F600}\U{1F600}\U{1F600}\U{1F600}")))
  {
  }
}

=== FILE: reset_flow.dfy ===
/** The password-reset flow across its three routes: request a code, verify
    it, set the new password; and how each route keeps the store's schema
    invariants. */
module ResetFlow {
  import opened JsText
  import opened Encoding
  import opened Store
  import opened Oracles
  import opened Http
  import opened Schemas
  import opened AuthLib
  import ForgotPassword
  import VerifyOtp
  import ResetPassword

  function RequestBody(email: string): Option<ForgotPassword.Body> {
    Some(ForgotPassword.Body(Some(email)))
  }

  function VerifyBody(email: string, otp: string): Option<VerifyOtp.Body> {
    Some(VerifyOtp.Body(Some(email), Some(otp)))
  }

  /** The expiry a request at `now` writes. */
  function RequestExpiry(now: int): int {
    now + ForgotPassword.ResetMinutes * MillisPerMinute
  }

  /** The happy path of the first two steps: after a request whose mail went
      out, the mailed code is accepted up to and including the expiry instant
      and answered with `verified-<reset token>`; one millisecond later it is
      refused as expired. */
  lemma RequestThenVerify(db: Db, env: Env, email: string, now: int, draw: OtpDraw, random: seq<Byte>, now2: int)
    requires HashSound(env) && HashShape(env) && |random| == DefaultTokenBytes
    requires env.isEmail(email) && GetUserByEmail(db, email).Some?
    ensures var s1 := ForgotPassword.Post(db, env, RequestBody(email), now, draw, random, true);
      var s2 := VerifyOtp.Post(s1.db, env, VerifyBody(email, OtpCode(draw)), now2);
      && (now2 <= RequestExpiry(now) ==>
            s2.response == Response(200, VerifyOtp.MsgVerified, VerifiedToken(VerifyOtp.VerifiedPrefix + GenerateToken(random))))
      && (now2 > RequestExpiry(now) ==> s2.response == Reply(400, VerifyOtp.MsgExpired))
  {
    var body := RequestBody(email);
    var s1 := ForgotPassword.Post(db, env, body, now, draw, random, true);
    var u := GetUserByEmail(db, email).value;
    assert ForgotPassword.Target(db, env, body) == Some(u);
    ForgotPassword.StoredTokenHidesOtp(db, env, body, now, draw, random);
    assert GetUserByEmail(s1.db, email) == Some(u);
    var rec := s1.db.resets[u.id];
    assert VerifyOtp.Reached(s1.db, env, VerifyBody(email, OtpCode(draw))) == Some((u, rec));
    assert Split(rec.token, ':')[1] == env.hash(OtpCode(draw));
  }

  /** A second request makes the first code useless: with a different draw
      the first code is refused whenever it is sent. */
  lemma StaleCodeRejected(db: Db, env: Env, email: string,
                          now1: int, draw1: OtpDraw, random1: seq<Byte>,
                          now2: int, draw2: OtpDraw, random2: seq<Byte>, now3: int)
    requires HashShape(env) && HashBinding(env)
    requires |random1| == DefaultTokenBytes && |random2| == DefaultTokenBytes
    requires env.isEmail(email) && GetUserByEmail(db, email).Some?
    requires draw1 != draw2
    ensures var s1 := ForgotPassword.Post(db, env, RequestBody(email), now1, draw1, random1, true);
      var s2 := ForgotPassword.Post(s1.db, env, RequestBody(email), now2, draw2, random2, true);
      var s3 := VerifyOtp.Post(s2.db, env, VerifyBody(email, OtpCode(draw1)), now3);
      && s3.response.status != 200
      && (now3 <= RequestExpiry(now2) ==> s3.response == Reply(400, VerifyOtp.MsgWrongOtp))
  {
    var body := RequestBody(email);
    var s1 := ForgotPassword.Post(db, env, body, now1, draw1, random1, true);
    var s2 := ForgotPassword.Post(s1.db, env, body, now2, draw2, random2, true);
    var alone := ForgotPassword.Post(db, env, body, now2, draw2, random2, true);
    ForgotPassword.LatestRequestWins(db, env, body, now1, draw1, random1, true, now2, draw2, random2, true);
    assert s2.db == alone.db;
    var u := GetUserByEmail(db, email).value;
    assert ForgotPassword.Target(db, env, body) == Some(u);
    ForgotPassword.StoredTokenHidesOtp(db, env, body, now2, draw2, random2);
    assert GetUserByEmail(s2.db, email) == Some(u);
    var rec := s2.db.resets[u.id];
    assert VerifyOtp.Reached(s2.db, env, VerifyBody(email, OtpCode(draw1))) == Some((u, rec));
    assert Split(rec.token, ':')[1] == env.hash(OtpCode(draw2));
    StaleCodeFailsCompare(env, draw1, draw2);
  }

  /** A code never verifies against the digest of the code of another draw. */
  lemma StaleCodeFailsCompare(env: Env, draw1: OtpDraw, draw2: OtpDraw)
    requires HashBinding(env) && draw1 != draw2
    ensures !env.compare(OtpCode(draw1), env.hash(OtpCode(draw2)))
  {
    var c1 := OtpCode(draw1);
    var c2 := OtpCode(draw2);
    OtpCodeRange(c1);
    Utf8LengthBound(c1);
    Utf8LengthBound(c2);
    assert '\0' !in c1 by {
      forall k | 0 <= k < |c1| ensures c1[k] != '\0' {
        assert IsDigit(c1[k]);
      }
    }
    assert '\0' !in c2 by {
      forall k | 0 <= k < |c2| ensures c2[k] != '\0' {
        assert IsDigit(c2[k]);
      }
    }
    assert WithinBcryptLimit(c1) && WithinBcryptLimit(c2);
    assert c1 != c2;
  }

  /** When the reset mail could not be sent the record keeps the bare token,
      which has no ':'-separated digest: any code sent before the expiry ends
      in the verify route's catch-all 500. */
  lemma FailedMailLeavesUnverifiableRecord(db: Db, env: Env, email: string, now: int, draw: OtpDraw,
                                           random: seq<Byte>, otp: string, now2: int)
    requires |random| == DefaultTokenBytes
    requires env.isEmail(email) && GetUserByEmail(db, email).Some?
    requires IsOtpCode(otp) && now2 <= RequestExpiry(now)
    ensures var s1 := ForgotPassword.Post(db, env, RequestBody(email), now, draw, random, false);
      VerifyOtp.Post(s1.db, env, VerifyBody(email, otp), now2).response == Reply(500, VerifyOtp.MsgFailed)
  {
  }

  /** The token the verify step hands to the page is `verified-` and hex, so
      it has no '.' and is no JWS compact serialisation: the reset route
      answers "Invalid or expired token" and changes nothing, for every store
      and every password. */
  lemma VerifiedTokenRejected(db: Db, env: Env, random: seq<Byte>, email: string, password: string)
    requires DecodeNeedsCompactForm(env)
    requires email != "" && password != ""
    ensures var token := VerifyOtp.VerifiedPrefix + GenerateToken(random);
      var body := ResetPassword.Body(Some(token), Some(email), Some(password));
      ResetPassword.Post(db, env, Some(body)) == Step(db, Reply(400, ResetPassword.MsgBadToken), [])
  {
    var hex := GenerateToken(random);
    var token := VerifyOtp.VerifiedPrefix + hex;
    assert '.' !in token by {
      forall i | 0 <= i < |token| ensures token[i] != '.' {
        if i >= |VerifyOtp.VerifiedPrefix| {
          assert IsLowerHex(hex[i - |VerifyOtp.VerifiedPrefix|]);
        }
      }
    }
    assert Split(token, '.') == [token];
    assert env.decode(token).None?;
  }

  /** After the reset route has stored the new digest for the account the
      token names, signing in with the new password succeeds and with any
      other password fails, even when deleting the reset record failed and
      the route answered 500. Both passwords are ones bcrypt reads in full
      and unambiguously: at most 72 UTF-8 bytes and no NUL character. */
  lemma ResetThenSignIn(db: Db, env: Env, body: ResetPassword.Body, id: UserId, other: string)
    requires Valid(db) && HashSound(env) && HashNonEmpty(env) && HashBinding(env)
    requires ResetPassword.ClaimedId(env, Some(body)) == Some(Some(id))
    requires GetUserById(db, id).Some? && GetUserById(db, id).value.email == body.email.value
    requires other != body.password.value
    requires WithinBcryptLimit(body.password.value) && WithinBcryptLimit(other)
    ensures var s := ResetPassword.Post(db, env, Some(body));
      && Authorize(s.db, env, Credentials(body.email, body.password)).Authorized?
      && Authorize(s.db, env, Credentials(body.email, Some(other))).AuthError?
  {
    var s := ResetPassword.Post(db, env, Some(body));
    var j := ResetStoresDigest(db, env, body, id);
    SignInWithDigest(s.db, env, j, body.password.value, other);
  }

  /** The reset route leaves the claimed account's row holding the digest of
      the new password, and the users' keys unique. */
  lemma ResetStoresDigest(db: Db, env: Env, body: ResetPassword.Body, id: UserId) returns (j: nat)
    requires Valid(db) && ResetPassword.ClaimedId(env, Some(body)) == Some(Some(id))
    requires GetUserById(db, id).Some?
    ensures var s := ResetPassword.Post(db, env, Some(body));
      && j < |s.db.users| && UniqueKeys(s.db.users)
      && s.db.users[j] == GetUserById(db, id).value.(password := Some(env.hash(body.password.value)))
  {
    var s := ResetPassword.Post(db, env, Some(body));
    var u := GetUserById(db, id).value;
    var hashed := env.hash(body.password.value);
    var updated := UpdateUserPassword(db, id, hashed).value;
    UpdatePasswordKeepsKeys(db, id, hashed);
    assert s.db.users == updated.users;
    j :| 0 <= j < |db.users| && db.users[j].id == id;
    assert updated.users[j] == u.(password := Some(hashed));
  }

  /** A row holding the digest of `pw` admits `pw` and nothing else. */
  lemma SignInWithDigest(db: Db, env: Env, j: nat, pw: string, other: string)
    requires UniqueKeys(db.users) && HashSound(env) && HashNonEmpty(env) && HashBinding(env)
    requires j < |db.users| && db.users[j].password == Some(env.hash(pw))
    requires db.users[j].email != "" && pw != "" && other != pw
    requires WithinBcryptLimit(pw) && WithinBcryptLimit(other)
    ensures Authorize(db, env, Credentials(Some(db.users[j].email), Some(pw))).Authorized?
    ensures Authorize(db, env, Credentials(Some(db.users[j].email), Some(other))).AuthError?
  {
    var email := db.users[j].email;
    assert env.hash(pw) != "";
    assert PasswordAccepted(db, env, email, pw);
    forall i | 0 <= i < |db.users| && db.users[i].email == email && Truthy(db.users[i].password)
      ensures !env.compare(other, db.users[i].password.value)
    {
      assert i == j;
    }
  }

  // Schema invariants.

  lemma RequestKeepsValid(db: Db, env: Env, body: Option<ForgotPassword.Body>, now: int, draw: OtpDraw,
                          random: seq<Byte>, mailOk: bool)
    requires Valid(db) && |random| == DefaultTokenBytes
    ensures Valid(ForgotPassword.Post(db, env, body, now, draw, random, mailOk).db)
  {
  }

  lemma VerifyKeepsValid(db: Db, env: Env, body: Option<VerifyOtp.Body>, now: int)
    requires Valid(db)
    ensures Valid(VerifyOtp.Post(db, env, body, now).db)
  {
  }

  lemma ResetKeepsValid(db: Db, env: Env, body: Option<ResetPassword.Body>)
    requires Valid(db)
    ensures Valid(ResetPassword.Post(db, env, body).db)
  {
    var claimed := ResetPassword.ClaimedId(env, body);
    if claimed.Some? && claimed.value.Some? && HasUser(db.users, claimed.value.value) {
      var id := claimed.value.value;
      var hashed := env.hash(body.value.password.value);
      UpdatePasswordKeepsKeys(db, id, hashed);
    }
  }
}

=== FILE: reset_password.dfy ===
/** `POST /api/auth/reset-password`: the final step of the reset flow. It
    trusts a signed token (decoded by `jwt.verify`) rather than the stored
    reset record, stores the digest of the new password, then deletes the
    record and sends a confirmation mail whose outcome it ignores. */
module ResetPassword {
  import opened JsText
  import opened Store
  import opened Oracles
  import opened Http

  const MsgMissing := "Missing required fields"
  const MsgBadToken := "Invalid or expired token"
  const MsgTokenMismatch := "Invalid token"
  const MsgNoUser := "User not found"
  const MsgDone := "Password reset successful"
  const MsgInternal := "Internal server error"

  datatype Body = Body(token: Option<string>, email: Option<string>, password: Option<string>)

  predicate FieldsPresent(body: Body) {
    Truthy(body.token) && Truthy(body.email) && Truthy(body.password)
  }

  /** The id a present, decodable token whose email claim matches the body names. */
  function ClaimedId(env: Env, body: Option<Body>): Option<Option<UserId>> {
    if body.None? || !FieldsPresent(body.value) then None
    else
      match env.decode(body.value.token.value)
      case None => None
      case Some(claims) => if claims.email != body.value.email then None else Some(claims.userId)
  }

  /** `body` is None when the request body is not JSON. */
  function Post(db: Db, env: Env, body: Option<Body>): (s: Step)
    ensures s.response.status != 200 && s.response.status != 500 ==> s.db == db && s.outbox == []
    ensures body.None? ==> s == Step(db, Reply(500, MsgInternal), [])
    ensures body.Some? && !FieldsPresent(body.value) ==> s == Step(db, Reply(400, MsgMissing), [])
    ensures body.Some? && FieldsPresent(body.value) && env.decode(body.value.token.value).None? ==>
      s == Step(db, Reply(400, MsgBadToken), [])
    ensures (&& body.Some? && FieldsPresent(body.value) && env.decode(body.value.token.value).Some?
             && env.decode(body.value.token.value).value.email != body.value.email) ==>
      s == Step(db, Reply(400, MsgTokenMismatch), [])
    ensures ClaimedId(env, body) == Some(None) ==> s == Step(db, Reply(500, MsgInternal), [])
    ensures (&& ClaimedId(env, body).Some? && ClaimedId(env, body).value.Some?
             && !HasUser(db.users, ClaimedId(env, body).value.value)) ==>
      s == Step(db, Reply(404, MsgNoUser), [])
    ensures ClaimedId(env, body).Some? && ClaimedId(env, body).value.Some? && HasUser(db.users, ClaimedId(env, body).value.value) ==>
      var id := ClaimedId(env, body).value.value;
      var hashed := env.hash(body.value.password.value);
      && |s.db.users| == |db.users|
      && (forall j :: 0 <= j < |db.users| && db.users[j].id != id ==> s.db.users[j] == db.users[j])
      && (forall j :: 0 <= j < |db.users| && db.users[j].id == id ==>
            s.db.users[j] == db.users[j].(password := Some(hashed)))
      && (id in db.resets ==> s == Step(s.db, Reply(200, MsgDone), [PasswordChangedMail(body.value.email.value)])
                              && s.db.resets == db.resets - {id})
      && (id !in db.resets ==> s == Step(s.db, Reply(500, MsgInternal), []) && s.db.resets == db.resets)
  {
    if body.None? then Step(db, Reply(500, MsgInternal), [])
    else if !FieldsPresent(body.value) then Step(db, Reply(400, MsgMissing), [])
    else
      var email := body.value.email.value;
      match env.decode(body.value.token.value)
      case None => Step(db, Reply(400, MsgBadToken), [])
      case Some(claims) =>
        if claims.email != Some(email) then Step(db, Reply(400, MsgTokenMismatch), [])
        // `findUnique({ where: { id: undefined } })` throws.
        else if claims.userId.None? then Step(db, Reply(500, MsgInternal), [])
        else
          match GetUserById(db, claims.userId.value)
          case None => Step(db, Reply(404, MsgNoUser), [])
          case Some(user) =>
            var updated := UpdateUserPassword(db, user.id, env.hash(body.value.password.value)).value;
            match DeletePasswordReset(updated, user.id)
            case None => Step(updated, Reply(500, MsgInternal), [])
            case Some(cleaned) => Step(cleaned, Reply(200, MsgDone), [PasswordChangedMail(email)])
  }

  /** Acceptance never looks at the stored token or expiry: two stores with
      the same users and the same set of record owners answer alike and end
      with the same users. */
  lemma IgnoresStoredRecord(db1: Db, db2: Db, env: Env, body: Option<Body>)
    requires db1.users == db2.users && db1.resets.Keys == db2.resets.Keys
    ensures Post(db1, env, body).response == Post(db2, env, body).response
    ensures Post(db1, env, body).outbox == Post(db2, env, body).outbox
    ensures Post(db1, env, body).db.users == Post(db2, env, body).db.users
  {
    var claimed := ClaimedId(env, body);
    if claimed.Some? && claimed.value.Some? && HasUser(db1.users, claimed.value.value) {
      var id := claimed.value.value;
      assert id in db1.resets <==> id in db2.resets;
      var s1 := Post(db1, env, body);
      var s2 := Post(db2, env, body);
      assert s1.db.users == s2.db.users;
    }
  }
}

=== FILE: schemas.dfy ===
/** Field rules that the zod schemas of several pages and routes share. */
module Schemas {
  import opened JsText

  /** `[a-zA-Z0-9_]`. */
  predicate IsUsernameChar(c: char) {
    ('a' <= c <= 'z') || ('A' <= c <= 'Z') || IsDigit(c) || c == '_'
  }

  /** `/^[a-zA-Z0-9_]+$/`. */
  predicate UsernameCharsOk(u: string) {
    |u| > 0 && forall i :: 0 <= i < |u| ==> IsUsernameChar(u[i])
  }

  /** `.min(3).max(20).regex(/^[a-zA-Z0-9_]+$/)`, the bounds on `.length`. */
  predicate UsernameOk(u: string) {
    3 <= Utf16Length(u) <= 20 && UsernameCharsOk(u)
  }

  /** `/[A-Z]/`, `/[a-z]/` and `/[0-9]/` each find a match somewhere. */
  predicate HasUpper(p: string) {
    exists i :: 0 <= i < |p| && 'A' <= p[i] <= 'Z'
  }

  predicate HasLower(p: string) {
    exists i :: 0 <= i < |p| && 'a' <= p[i] <= 'z'
  }

  predicate HasDigit(p: string) {
    exists i :: 0 <= i < |p| && IsDigit(p[i])
  }

  /** The client-side password policy: eight UTF-16 code units, an
      upper-case letter, a lower-case letter and a digit. */
  predicate StrongPassword(p: string) {
    Utf16Length(p) >= 8 && HasUpper(p) && HasLower(p) && HasDigit(p)
  }

  /** Exactly six ASCII digits: `.length(6).regex(/^\d+$/)`. */
  predicate IsOtpCode(s: string) {
    |s| == 6 && MatchesDigits(s)
  }
}

=== FILE: store.dfy ===
/** The two tables the auth code reads and writes (the `User` and
    `PasswordReset` models) and the helpers of `src/lib/db.ts` over them.
    Users are rows of a table; password-reset records live in a map keyed by
    the owning user's id, so there is at most one record per user. A Prisma
    call that throws (record not found, unique or foreign-key violation)
    yields None. */
module Store {
  import opened JsText

  type UserId = string

  datatype User = User(
    id: UserId,
    name: Option<string>,
    username: Option<string>,
    email: string,
    image: Option<string>,
    password: Option<string>)

  datatype ResetRecord = ResetRecord(token: string, expires: int)

  datatype Db = Db(users: seq<User>, resets: map<UserId, ResetRecord>)

  /** A `findUnique` selector. */
  datatype Key = ById(id: UserId) | ByEmail(email: string) | ByUsername(username: string)

  predicate Matches(u: User, key: Key) {
    match key
    case ById(id) => u.id == id
    case ByEmail(e) => u.email == e
    case ByUsername(n) => u.username == Some(n)
  }

  /** The unique constraints on `id`, `email` and `username` (a null username
      is not a value and never clashes). */
  predicate UniqueKeys(users: seq<User>) {
    forall i, j :: 0 <= i < j < |users| ==>
      && users[i].id != users[j].id
      && users[i].email != users[j].email
      && (users[i].username.Some? ==> users[i].username != users[j].username)
  }

  predicate HasUser(users: seq<User>, id: UserId) {
    exists i :: 0 <= i < |users| && users[i].id == id
  }

  /** Schema invariants: unique keys, and every reset record belongs to a user. */
  predicate Valid(db: Db) {
    && UniqueKeys(db.users)
    && forall id :: id in db.resets ==> HasUser(db.users, id)
  }

  /** Position of the first row matching the selector. */
  function Find(users: seq<User>, key: Key): (r: Option<nat>)
    ensures r.None? ==> forall j :: 0 <= j < |users| ==> !Matches(users[j], key)
    ensures r.Some? ==> r.value < |users| && Matches(users[r.value], key)
    ensures r.Some? ==> forall j :: 0 <= j < r.value ==> !Matches(users[j], key)
  {
    if |users| == 0 then None
    else if Matches(users[0], key) then Some(0)
    else
      match Find(users[1..], key)
      case None => None
      case Some(i) => Some(i + 1)
  }

  /** `findUnique` on the user table. */
  function FindUnique(db: Db, key: Key): (r: Option<User>)
    ensures r.Some? <==> exists j :: 0 <= j < |db.users| && Matches(db.users[j], key)
    ensures r.Some? ==> r.value in db.users && Matches(r.value, key) && HasUser(db.users, r.value.id)
    ensures r.Some? && UniqueKeys(db.users) ==>
      forall j :: 0 <= j < |db.users| && Matches(db.users[j], key) ==> db.users[j] == r.value
  {
    match Find(db.users, key)
    case None => None
    case Some(i) =>
      assert UniqueKeys(db.users) ==> forall j :: 0 <= j < |db.users| && Matches(db.users[j], key) ==> j == i by {
        if UniqueKeys(db.users) {
          forall j | 0 <= j < |db.users| && Matches(db.users[j], key)
            ensures j == i
          {
          }
        }
      }
      Some(db.users[i])
  }

  function GetUserByEmail(db: Db, email: string): Option<User> {
    FindUnique(db, ByEmail(email))
  }

  function GetUserById(db: Db, id: UserId): Option<User> {
    FindUnique(db, ById(id))
  }

  function GetUserByUsername(db: Db, username: string): Option<User> {
    FindUnique(db, ByUsername(username))
  }

  function GetPasswordResetByUserId(db: Db, id: UserId): Option<ResetRecord> {
    if id in db.resets then Some(db.resets[id]) else None
  }

  /** Create the user's record or overwrite its token and expiry; the foreign
      key to the user table makes the call throw for an unknown user. */
  function UpsertPasswordReset(db: Db, id: UserId, token: string, expires: int): (r: Option<Db>)
    ensures r.Some? <==> HasUser(db.users, id)
    ensures r.Some? ==> r.value.users == db.users
    ensures r.Some? ==> r.value.resets.Keys == db.resets.Keys + {id}
    ensures r.Some? ==> GetPasswordResetByUserId(r.value, id) == Some(ResetRecord(token, expires))
    ensures r.Some? ==> forall other :: other != id ==>
      GetPasswordResetByUserId(r.value, other) == GetPasswordResetByUserId(db, other)
  {
    if HasUser(db.users, id) then Some(db.(resets := db.resets[id := ResetRecord(token, expires)])) else None
  }

  /** Overwrite only the token of an existing record (`passwordReset.update`). */
  function UpdateResetToken(db: Db, id: UserId, token: string): (r: Option<Db>)
    ensures r.Some? <==> id in db.resets
    ensures r.Some? ==> r.value.users == db.users && r.value.resets.Keys == db.resets.Keys
    ensures r.Some? ==> r.value.resets[id] == db.resets[id].(token := token)
    ensures r.Some? ==> forall other :: other in db.resets && other != id ==>
      r.value.resets[other] == db.resets[other]
  {
    if id in db.resets then Some(db.(resets := db.resets[id := db.resets[id].(token := token)])) else None
  }

  /** Remove the user's record; deleting a missing record throws. */
  function DeletePasswordReset(db: Db, id: UserId): (r: Option<Db>)
    ensures r.Some? <==> id in db.resets
    ensures r.Some? ==> r.value.users == db.users
    ensures r.Some? ==> r.value.resets.Keys == db.resets.Keys - {id}
    ensures r.Some? ==> forall other :: other in r.value.resets ==> r.value.resets[other] == db.resets[other]
  {
    if id in db.resets then Some(db.(resets := db.resets - {id})) else None
  }

  function SetPassword(u: User, id: UserId, hashed: string): User {
    if u.id == id then u.(password := Some(hashed)) else u
  }

  /** Replace the password digest of the user with that id; updating a missing
      user throws. */
  function UpdateUserPassword(db: Db, id: UserId, hashed: string): (r: Option<Db>)
    ensures r.Some? <==> HasUser(db.users, id)
    ensures r.Some? ==> r.value.resets == db.resets && |r.value.users| == |db.users|
    ensures r.Some? ==> forall j :: 0 <= j < |db.users| ==>
      && (db.users[j].id != id ==> r.value.users[j] == db.users[j])
      && (db.users[j].id == id ==> r.value.users[j] == db.users[j].(password := Some(hashed)))
  {
    if HasUser(db.users, id) then
      Some(db.(users := seq(|db.users|, j requires 0 <= j < |db.users| => SetPassword(db.users[j], id, hashed))))
    else None
  }

  /** Insert a user with exactly the given username, email and password; the
      row gets a fresh id, and a clash on a unique column throws. */
  function CreateUser(db: Db, id: UserId, username: string, email: string, password: string): (r: Option<Db>)
    ensures r.Some? <==>
      && GetUserById(db, id).None?
      && GetUserByEmail(db, email).None?
      && GetUserByUsername(db, username).None?
    ensures r.Some? ==> r.value.resets == db.resets
    ensures r.Some? ==> r.value.users == db.users + [User(id, None, Some(username), email, None, Some(password))]
  {
    if GetUserById(db, id).None? && GetUserByEmail(db, email).None? && GetUserByUsername(db, username).None? then
      Some(db.(users := db.users + [User(id, None, Some(username), email, None, Some(password))]))
    else None
  }

  // Laws of the single-slot reset table and preservation of the schema invariants.

  /** Reading back the reset slots after each write. */
  lemma ResetSlotLaws(db: Db, id: UserId, other: UserId, token: string, expires: int)
    requires Valid(db) && HasUser(db.users, id) && other != id
    ensures UpsertPasswordReset(db, id, token, expires).Some?
    ensures var db' := UpsertPasswordReset(db, id, token, expires).value;
      && GetPasswordResetByUserId(db', id) == Some(ResetRecord(token, expires))
      && GetPasswordResetByUserId(db', other) == GetPasswordResetByUserId(db, other)
      && GetPasswordResetByUserId(DeletePasswordReset(db', id).value, id).None?
      && GetPasswordResetByUserId(DeletePasswordReset(db', id).value, other) == GetPasswordResetByUserId(db, other)
    ensures var db' := UpsertPasswordReset(db, id, token, expires).value;
      forall t, e :: UpsertPasswordReset(UpsertPasswordReset(db, id, t, e).value, id, token, expires) == Some(db')
  {
    var db' := UpsertPasswordReset(db, id, token, expires).value;
    forall t, e
      ensures UpsertPasswordReset(UpsertPasswordReset(db, id, t, e).value, id, token, expires) == Some(db')
    {
      var mid := UpsertPasswordReset(db, id, t, e).value;
      assert mid.resets[id := ResetRecord(token, expires)] == db.resets[id := ResetRecord(token, expires)];
    }
  }

  lemma UpdatePasswordKeepsKeys(db: Db, id: UserId, hashed: string)
    requires Valid(db) && HasUser(db.users, id)
    ensures Valid(UpdateUserPassword(db, id, hashed).value)
  {
  }

  lemma CreateUserKeepsKeys(db: Db, id: UserId, username: string, email: string, password: string)
    requires Valid(db) && CreateUser(db, id, username, email, password).Some?
    ensures Valid(CreateUser(db, id, username, email, password).value)
  {
    var db' := CreateUser(db, id, username, email, password).value;
    var n := |db.users|;
    forall i, j | 0 <= i < j < |db'.users|
      ensures db'.users[i].id != db'.users[j].id
      ensures db'.users[i].email != db'.users[j].email
      ensures db'.users[i].username.Some? ==> db'.users[i].username != db'.users[j].username
    {
      if j == n {
        assert !Matches(db.users[i], ById(id));
        assert !Matches(db.users[i], ByEmail(email));
        assert !Matches(db.users[i], ByUsername(username));
      }
    }
    forall k | k in db'.resets ensures HasUser(db'.users, k) {
      var j :| 0 <= j < |db.users| && db.users[j].id == k;
      assert db'.users[j].id == k;
    }
  }
}

=== FILE: verify_otp.dfy ===
/** The OTP verification step, served from
    `src/app/api/auth/send-login-notification/route.ts` whatever its file name
    says. It checks the stored record's expiry before the code, recovers the
    digest by splitting the stored token on ':', and on success overwrites the
    token with `verified-<reset token>`. */
module VerifyOtp {
  import opened JsText
  import opened Store
  import opened Oracles
  import opened Http
  import opened Schemas
  import opened AuthLib

  const MsgBadInput := "Invalid input data"
  const MsgNoRecord := "Invalid or expired OTP"
  const MsgExpired := "OTP has expired"
  const MsgWrongOtp := "Invalid OTP"
  const MsgVerified := "OTP verified successfully"
  const MsgFailed := "Failed to verify OTP"
  const VerifiedPrefix := "verified-"

  datatype Body = Body(email: Option<string>, otp: Option<string>)

  /** The zod schema: a valid email and six ASCII digits. */
  predicate InputOk(env: Env, body: Body) {
    && body.email.Some? && env.isEmail(body.email.value)
    && body.otp.Some? && IsOtpCode(body.otp.value)
  }

  /** The account and reset record a well-formed request reaches, if both exist. */
  function Reached(db: Db, env: Env, body: Option<Body>): Option<(User, ResetRecord)> {
    if body.None? || !InputOk(env, body.value) then None
    else
      match GetUserByEmail(db, body.value.email.value)
      case None => None
      case Some(u) =>
        match GetPasswordResetByUserId(db, u.id)
        case None => None
        case Some(rec) => Some((u, rec))
  }

  /** `body` is None when the request body is not JSON; `now` is the clock. */
  function Post(db: Db, env: Env, body: Option<Body>, now: int): (s: Step)
    ensures s.outbox == []
    ensures s.response.status != 200 ==> s.db == db
    ensures body.None? ==> s.response == Reply(500, MsgFailed)
    ensures body.Some? && !InputOk(env, body.value) ==> s.response == Reply(400, MsgBadInput)
    ensures body.Some? && InputOk(env, body.value) && Reached(db, env, body).None? ==>
      s.response == Reply(400, MsgNoRecord)
    ensures Reached(db, env, body).Some? && Reached(db, env, body).value.1.expires < now ==>
      s.response == Reply(400, MsgExpired)
    ensures Reached(db, env, body).Some? && Reached(db, env, body).value.1.expires >= now ==>
      var (u, rec) := Reached(db, env, body).value;
      var parts := Split(rec.token, ':');
      && (|parts| < 2 ==> s.response == Reply(500, MsgFailed))
      && (|parts| >= 2 && !env.compare(body.value.otp.value, parts[1]) ==> s.response == Reply(400, MsgWrongOtp))
    ensures s.response.status == 200 <==>
      && Reached(db, env, body).Some?
      && var (u, rec) := Reached(db, env, body).value;
         var parts := Split(rec.token, ':');
         rec.expires >= now && |parts| >= 2 && env.compare(body.value.otp.value, parts[1])
    ensures s.response.status == 200 ==>
      var (u, rec) := Reached(db, env, body).value;
      var verified := VerifiedPrefix + Split(rec.token, ':')[0];
      && s.response == Response(200, MsgVerified, VerifiedToken(verified))
      && s.db.users == db.users
      && s.db.resets == db.resets[u.id := ResetRecord(verified, rec.expires)]
  {
    if body.None? then Step(db, Reply(500, MsgFailed), [])
    else if !InputOk(env, body.value) then Step(db, Reply(400, MsgBadInput), [])
    else
      var otp := body.value.otp.value;
      match Reached(db, env, body)
      case None => Step(db, Reply(400, MsgNoRecord), [])
      case Some((u, rec)) =>
        // The route's own test, `expires < new Date()`.
        if rec.expires < now then Step(db, Reply(400, MsgExpired), [])
        else
          var parts := Split(rec.token, ':');
          // `bcrypt.compare(otp, undefined)` rejects, which lands in the catch-all.
          if |parts| < 2 then Step(db, Reply(500, MsgFailed), [])
          else if !env.compare(otp, parts[1]) then Step(db, Reply(400, MsgWrongOtp), [])
          else
            var verified := VerifiedPrefix + parts[0];
            var db' := UpdateResetToken(db, u.id, verified).value;
            Step(db', Response(200, MsgVerified, VerifiedToken(verified)), [])
  }

  /** Once a code has been accepted, no later verification for that email
      succeeds, whatever code is sent and whenever: the stored token has lost
      its ':'-separated digest. */
  lemma RepeatVerificationFails(db: Db, env: Env, body: Option<Body>, now: int, otp2: Option<string>, now2: int)
    requires Post(db, env, body, now).response.status == 200
    ensures var again := Body(body.value.email, otp2);
      Post(Post(db, env, body, now).db, env, Some(again), now2).response.status != 200
  {
  }

  /** The rejection rule is `isTokenExpired` of the shared library: a record is
      still accepted at its expiry instant and refused one millisecond later. */
  lemma ExpiryMatchesLibrary(db: Db, env: Env, body: Option<Body>, now: int)
    requires Reached(db, env, body).Some?
    ensures Post(db, env, body, now).response == Reply(400, MsgExpired)
      <==> IsTokenExpired(Reached(db, env, body).value.1.expires, now)
  {
  }
}

=== FILE: welcome_email.dfy ===
/** `POST /api/auth/send-welcome-email`: the status table of the welcome
    mail. An unknown email gets the same generic 200 without any send; a
    failed send is forgiven only in development. */
module WelcomeEmail {
  import opened JsText
  import opened Store
  import opened Oracles
  import opened Http

  const MsgBadInput := "Invalid request data"
  const MsgUnknown := "Welcome email will be sent if the account exists"
  const MsgSent := "Welcome email sent successfully"
  const MsgSentDev := "Welcome email sent successfully (development mode)"
  const MsgSendFailed := "Failed to send welcome email"
  const MsgFailed := "Failed to process your request"

  /** A field under `z.string().optional()`: missing, a string, or a value of
      another type (null included), which the schema rejects. */
  datatype OptionalString = Missing | Given(text: string) | NotAString

  /** The string the handler sees: undefined when the field is missing. */
  function AsOption(f: OptionalString): (r: Option<string>)
    requires !f.NotAString?
    ensures r.Some? <==> f.Given?
    ensures f.Given? ==> r.value == f.text
  {
    if f.Given? then Some(f.text) else None
  }

  /** `email` is None when it is missing or not a string; the schema requires
      a string there. */
  datatype Body = Body(email: Option<string>, username: OptionalString)

  /** `welcomeEmailSchema.parse` succeeds. */
  predicate InputOk(env: Env, body: Body) {
    body.email.Some? && env.isEmail(body.email.value) && !body.username.NotAString?
  }

  /** `username || user.username || undefined`. */
  function GreetingName(requested: Option<string>, stored: Option<string>): (name: Option<string>)
    ensures Truthy(requested) ==> name == requested
    ensures !Truthy(requested) && Truthy(stored) ==> name == stored
    ensures !Truthy(requested) && !Truthy(stored) ==> name.None?
  {
    if Truthy(requested) then requested else if Truthy(stored) then stored else None
  }

  /** `mailOk` is what `sendWelcomeEmail` returned; `development` is
      `NODE_ENV === 'development'`. */
  function Post(db: Db, env: Env, body: Option<Body>, mailOk: bool, development: bool): (s: Step)
    ensures s.db == db
    ensures body.None? ==> s == Step(db, Reply(500, MsgFailed), [])
    ensures body.Some? && !InputOk(env, body.value) ==> s == Step(db, Reply(400, MsgBadInput), [])
    ensures body.Some? && body.value.username.NotAString? ==> s.response.status == 400 && s.outbox == []
    ensures (&& body.Some? && InputOk(env, body.value)
             && forall j :: 0 <= j < |db.users| ==> db.users[j].email != body.value.email.value) ==>
      s == Step(db, Reply(200, MsgUnknown), [])
    ensures body.Some? && InputOk(env, body.value) && GetUserByEmail(db, body.value.email.value).Some? ==>
      var u := GetUserByEmail(db, body.value.email.value).value;
      && s.outbox == [WelcomeMail(body.value.email.value, GreetingName(AsOption(body.value.username), u.username))]
      && (mailOk ==> s.response == Reply(200, MsgSent))
      && (!mailOk && development ==> s.response == Reply(200, MsgSentDev))
      && (!mailOk && !development ==> s.response == Reply(500, MsgSendFailed))
  {
    if body.None? then Step(db, Reply(500, MsgFailed), [])
    else if !InputOk(env, body.value) then Step(db, Reply(400, MsgBadInput), [])
    else
      var email := body.value.email.value;
      match GetUserByEmail(db, email)
      case None => Step(db, Reply(200, MsgUnknown), [])
      case Some(user) =>
        var sent := [WelcomeMail(email, GreetingName(AsOption(body.value.username), user.username))];
        if mailOk then Step(db, Reply(200, MsgSent), sent)
        else if development then Step(db, Reply(200, MsgSentDev), sent)
        else Step(db, Reply(500, MsgSendFailed), sent)
  }
}
